=== FILE: README.md ===
# EGE score bot: a verified model of its conversation logic and score parser

The bot collects Unified State Exam (EGE) scores through a chat. It stores one
document per student, `{name, scores}`, in a `students` collection. All of its
behaviour lives in `EGE_score_bot.py`. This project models the two parts of that
file that are more than framework calls:

- **The score-list parser.** `scores_text.split(",")` splits the text on commas.
  `item.split()` splits each segment on runs of whitespace. `dict(...)` demands
  exactly two tokens per segment and keeps the last score token of a repeated
  subject. `int(score)` then converts every score token that survived that step.
  Either failure is a `ValueError`, modelled as `FormatError`.
- **The per-user conversation.** A user's `context.user_data` holds three
  independent flags: `registering`, `entering_scores` and `updating_scores`.
  The prompt handlers set them. `text_message` first checks whether the text is
  a button label; if not, it consults the flags in a fixed order. The branch it
  takes performs at most one collection operation and clears only its own flag.

Files and modules:

| file | module | contents |
|---|---|---|
| wrappers.dfy | `Wrappers` | `Option`, `Result` |
| text.dfy | `Text` | Python's `str.strip()`, `str.split(sep)` and `str.split()`, with `isspace` whitespace |
| integers.dfy | `Integers` | `int(token)` for a sign and ASCII digits; `str(n)` |
| score_parser.dfy | `ScoreParser` | the parser of lines 84-85 (95-96), a reference characterisation, and the round trip |
| student_store.dfy | `StudentStore` | the collection as a sequence of records, with first-match `find_one`, `update_one` (with and without upsert) and `delete_one`, plus `insert_one` |
| conversation.dfy | `Conversation` | the button table, the flags, the replies, the pure meaning of each handler (`RunAction`) and of `text_message` (`Step`), and the lemmas about them |
| score_bot.dfy | `Bot` | class `Session` (the flag dictionary) and class `ScoreBot` (the collection plus one method per handler), each method proved equal to `Conversation` |

Where the code behaves in a way one might not expect, the model follows the code:

- Only the score token of the **last** segment that names a subject is passed to
  `int`, because `dict` merges before the comprehension converts. So
  `Math x, Math 5` is accepted as `{Math: 5}` (`ScoreParser.OverriddenScoreIgnored`).
- A button label does not always leave the collection alone. The label
  `Удалить аккаунт` runs `delete_account` (`Conversation.ActionEffects`).
- The session state is three flags, not one state. After pressing both
  registration and score entry, a name leaves score entry pending
  (`Conversation.PendingEntrySurvivesRegistration`). "Back to idle after one
  text" therefore holds only when exactly one flag was set
  (`Conversation.SingleFlagReturnsToIdle`).
- "Delete, then view finds nothing" holds only while the handle has at most one
  record. Registration allows duplicates, and `delete_one` removes one match
  (`StudentStore.DeleteThenNotFound`, `StudentStore.DeleteDuplicateStillFound`).
- A score outside the signed 64-bit range, such as `Math 99999999999999999999`,
  passes `int()`. `update_one` (lines 87 and 98) then raises `OverflowError`
  while encoding the document. The `except ValueError` clauses do not catch it,
  so the handler ends without a reply and without a write. It also never
  reaches the line that clears its flag (91 or 102), so the flag stays set.
  `Conversation.Step` models this as the `NoReply` outcome
  (`Conversation.OversizedScoreOverflows`).

## Model

| member | source | states |
|---|---|---|
| Text.Strip | EGE_score_bot.py:70 | `strip()` returns a contiguous slice of the text. Only whitespace is cut from either end, and the result neither starts nor ends with whitespace |
| Text.IsSpace | EGE_score_bot.py:70 | the whitespace set of `str.isspace`, which `strip()` and `split()` use. Described by `Text.Strip`, `Text.Words` and `Text.WordThenSpace` |
| Text.StripIdempotent | EGE_score_bot.py:70 | `strip()` is idempotent: stripping its result again changes nothing |
| Text.Split | EGE_score_bot.py:84 | `split(",")` returns at least one piece, no piece contains the separator, and joining the pieces with it gives the text back |
| Text.SplitJoin | EGE_score_bot.py:84 | splitting a join of separator-free pieces returns exactly those pieces |
| Text.Words | EGE_score_bot.py:84 | every token of `item.split()` is non-empty and contains no whitespace |
| Text.WordThenSpace | EGE_score_bot.py:84 | `split()` ends a token at any whitespace character (tab, newline, no-break space, ...), not only at a space |
| Text.WordsKeepEveryLetter | EGE_score_bot.py:84 | the tokens, run together, are exactly the segment's non-whitespace characters in order |
| Text.WordsEmptyIffBlank | EGE_score_bot.py:84 | a segment has no tokens if and only if it is empty or all whitespace |
| Text.WordsOfJoin | EGE_score_bot.py:84 | non-empty, whitespace-free words joined by spaces split back into the same words |
| Integers.ParseInt | EGE_score_bot.py:85 | `int(score)` succeeds exactly on an optional sign followed by digits. A `-` gives a value <= 0, otherwise >= 0 |
| Integers.ParseIntPlus | EGE_score_bot.py:85 | a leading `+` does not change the value (`+60` is 60) |
| Integers.ParseIntMinus | EGE_score_bot.py:85 | a leading `-` negates the value of the digits (`-0` is 0) |
| Integers.ParseIntLeadingZero | EGE_score_bot.py:85 | leading zeros do not change the value (`060` is 60) |
| Integers.ParseIntToString | EGE_score_bot.py:85 | `int(str(n)) == n` for every integer |
| ScoreParser.Tokenize | EGE_score_bot.py:84 | the token lists `item.split()` of the pieces of `split(",")`. Described by `Text.Split`, `Text.Words` and `ScoreParser.ParseWrongTokenCount` |
| ScoreParser.Pairs | EGE_score_bot.py:84 | `dict` accepts the tokenised segments exactly when each has two tokens, and then pairs them in order. Otherwise the error names the first bad segment and its token count |
| ScoreParser.Dict | EGE_score_bot.py:84 | the keys of `dict(pairs)` are exactly the first components |
| ScoreParser.DictLastWins | EGE_score_bot.py:84 | a repeated key keeps the value of its last pair |
| ScoreParser.DictOfDistinctKeys | EGE_score_bot.py:84 | without repeated keys, `dict` keeps every pair: its size is the number of pairs, and each key maps to its value |
| ScoreParser.ConvertScores | EGE_score_bot.py:85 | `int()` applied to every value of the merged dictionary, failing if any value is not an integer. Described by `ScoreParser.ParseSucceedsIff` and `ScoreParser.ParseValues` |
| ScoreParser.Parse | EGE_score_bot.py:84-85 | the whole parser. Described by `ScoreParser.ParseSucceedsIff`, `ScoreParser.ParseValues`, `ScoreParser.ParseWrongTokenCount` and `ScoreParser.RoundTrip` |
| ScoreParser.ParseSucceedsIff | EGE_score_bot.py:84-85 | the parser succeeds if and only if every segment has exactly two tokens and the score token of each subject's last segment is an integer |
| ScoreParser.ParseValues | EGE_score_bot.py:84-85 | on success the keys are exactly the first tokens, and each maps to the integer of its last segment's score token |
| ScoreParser.ParseWrongTokenCount | EGE_score_bot.py:84 | a token-count error happens if and only if some segment does not have two tokens. It names the first such segment and its count |
| ScoreParser.BlankSegmentFails | EGE_score_bot.py:84 | any empty or all-whitespace segment makes the text a format error |
| ScoreParser.EmptyTextFails | EGE_score_bot.py:84 | the empty text is a format error at segment 0, which has 0 tokens |
| ScoreParser.TrailingCommaFails | EGE_score_bot.py:84 | a text ending in `,` is a format error |
| ScoreParser.DoubleCommaFails | EGE_score_bot.py:84 | a text containing `,,` is a format error |
| ScoreParser.RoundTrip | EGE_score_bot.py:84-85 | a non-empty list rendered as `subject1 score1, subject2 score2, ...` (the prompt's format, line 66) parses back to `dict` of the list. This holds when subjects are non-empty and free of whitespace and commas |
| ScoreParser.MissingScoreFails | EGE_score_bot.py:84 | `subject score, other` fails at segment 1, which has one token |
| ScoreParser.WordForScoreFails | EGE_score_bot.py:85 | `subject word` with a non-integer word fails with the not-an-integer error |
| ScoreParser.OverriddenScoreIgnored | EGE_score_bot.py:84-85 | `subject word, subject n` parses to `{subject: n}` even when `word` is not an integer |
| ScoreParser.ExampleTwoSubjects | EGE_score_bot.py:84-85 | `Math 60, Physics 80` gives `{Math: 60, Physics: 80}` |
| ScoreParser.ExampleMissingScore | EGE_score_bot.py:84 | `Math 60, Physics` is a format error |
| ScoreParser.ExampleWordForScore | EGE_score_bot.py:85 | `Math sixty` is a format error |
| ScoreParser.ExampleOverriddenBadScore | EGE_score_bot.py:84-85 | `Math x, Math 5` is accepted as `{Math: 5}` |
| StudentStore.FindIndex | EGE_score_bot.py:111 | the match of `{"name": name}` is the first record with that name. There is none exactly when no record carries the name |
| StudentStore.GetScores | EGE_score_bot.py:111 | `find_one` finds something exactly when some record has the name, and then gives the scores of the first one |
| StudentStore.Insert | EGE_score_bot.py:78 | `insert_one` appends the record. Described by `Conversation.RegistrationAppends` |
| StudentStore.SetScores | EGE_score_bot.py:87 | `update_one` with `$set`, with or without upsert. Described by `StudentStore.SetScoresThenGet`, `StudentStore.SetScoresOnlyFirstMatch`, `StudentStore.SetScoresLeavesOthers`, `StudentStore.UpsertKeepsCount` and `StudentStore.UpdateAbsentUnchanged` |
| StudentStore.SetScoresThenGet | EGE_score_bot.py:87 | after `update_one` the name finds exactly the new scores, unless no upsert was asked and no record matched |
| StudentStore.SetScoresLeavesOthers | EGE_score_bot.py:98 | setting one name's scores changes no other name's lookup |
| StudentStore.SetScoresOnlyFirstMatch | EGE_score_bot.py:98 | `update_one` on a present name rewrites only the first match. Its length is kept, that record becomes `{name, new scores}`, and without that record the collection is unchanged, later duplicates included |
| StudentStore.UpsertKeepsCount | EGE_score_bot.py:87 | an upsert never duplicates a name. The number of records with the name becomes one if it was zero and otherwise stays the same. A name without a record gets its new record appended at the end |
| StudentStore.UpdateAbsentUnchanged | EGE_score_bot.py:98 | `update_one` without upsert on an absent name leaves the collection unchanged |
| StudentStore.DeleteOne | EGE_score_bot.py:123 | `delete_one` removes the first match. Described by `StudentStore.DeleteOneRemovesFirstMatch`, `StudentStore.DeleteOneMultiset`, `StudentStore.DeleteOneKeepsOrder`, `StudentStore.DeleteOneLeavesOthers` and `StudentStore.DeleteOneKeepsOtherLookups` |
| StudentStore.DeleteOneRemovesFirstMatch | EGE_score_bot.py:123 | `delete_one` removes exactly one record (one fewer with that name) when the name is present, and nothing otherwise |
| StudentStore.DeleteOneMultiset | EGE_score_bot.py:123 | only the first match leaves the collection. The remaining records are the old ones minus that one |
| StudentStore.DeleteOneLeavesOthers | EGE_score_bot.py:123 | deleting one name keeps the count of every other name |
| StudentStore.DeleteOneKeepsOrder | EGE_score_bot.py:123 | the records before the removed match keep their places, and every record after it moves up by one place, so the order of the rest is kept |
| StudentStore.DeleteOneKeepsOtherLookups | EGE_score_bot.py:123 | after deleting one name, every other name's `find_one` still returns the same scores |
| StudentStore.DeleteThenNotFound | EGE_score_bot.py:123 | with at most one record for the name, it is not found after the delete |
| StudentStore.DeleteDuplicateStillFound | EGE_score_bot.py:123 | with two or more records for the name, it is still found after the delete |
| Conversation.View | EGE_score_bot.py:109-119 | the view reply is not-found exactly when no record matches the handle or its scores are empty. Otherwise it carries the first match's scores |
| Conversation.ScoreListing | EGE_score_bot.py:114-116 | the reply lines list every subject exactly once, each with its score, and nothing else |
| Conversation.ButtonTable | EGE_score_bot.py:15-22 | six labels, one for each handler except `start` |
| Conversation.ActionEffects | EGE_score_bot.py:61-67 | a handler clears no flag and sets only its own (lines 63, 67, 128). Only `delete_account` changes the collection, and every handler replies (never the format error, the unsupported message or no reply) |
| Conversation.RunAction | EGE_score_bot.py:48-67 | the effect of each command handler (also lines 109-141). Described by `Conversation.ActionEffects`, and `Bot.ScoreBot.Dispatch` is proved equal to it |
| Conversation.Step | EGE_score_bot.py:69-107 | the effect of `text_message`. Described by `Conversation.ButtonLabelFirst`, `Conversation.PendingFlagOrder` and the lemmas below it, and `Bot.ScoreBot.TextMessage` is proved equal to it |
| Conversation.ButtonLabelFirst | EGE_score_bot.py:72-74 | a text that is a label (after stripping) runs that label's handler, so every pending flag stays set |
| Conversation.PendingFlagOrder | EGE_score_bot.py:76-107 | for other text, `registering` beats `entering_scores`, which beats `updating_scores`. Only the taken branch's flag is cleared, whether or not parsing succeeds, unless a score overflows 64 bits. In that case nothing changes and no reply is sent. With no flag set, the reply is unsupported and nothing changes |
| Conversation.RegistrationAppends | EGE_score_bot.py:76-80 | registration appends `{name: stripped text, scores: {}}` even when the name already exists, and replies with the name |
| Conversation.EntryUpserts | EGE_score_bot.py:81-91 | a parsed entry makes the handle find exactly those scores, and clears the flag. Without a record the new one is appended at the end. With one, the first match is rewritten in place and every other record is untouched. Other names are unaffected. An entry that overflows 64 bits changes nothing and gets no reply |
| Conversation.UpdateOfAbsentHandle | EGE_score_bot.py:92-102 | an update for a handle with no record leaves the collection unchanged and still replies "updated" when the text parses (no reply, and the flag kept, on an overflow) |
| Conversation.UpdateOfPresentHandle | EGE_score_bot.py:92-102 | an update for a present handle replaces the scores of its first record only, at the same position. Without that record the collection is as before, no other name's lookup changes, and the flag is cleared. An overflow changes nothing and gets no reply |
| Conversation.ParseFailureKeepsStore | EGE_score_bot.py:89-90 | a text that fails to parse leaves the collection unchanged and gets the format-error reply |
| Conversation.SingleFlagReturnsToIdle | EGE_score_bot.py:80 | with exactly one flag set, any non-label text leaves the session with no flag set (lines 80, 91, 102). The exception is scores that overflow 64 bits, which keep the flag |
| Conversation.SecondTextUnsupported | EGE_score_bot.py:103-107 | a second non-label text after a replied first one gets the unsupported reply and changes nothing. A first text with no reply left everything as it was |
| Conversation.PendingEntrySurvivesRegistration | EGE_score_bot.py:76-91 | with both registration and entry pending, the name clears only `registering`, and the next text is read as scores (saved, format error, or no reply on an overflow) |
| Conversation.RegisteredNameNotFoundByHandle | EGE_score_bot.py:77-78 | registration keys by the typed name, but view keys by the account handle (line 110). A handle that had no record is not found, even one equal to the typed name, because the new record's scores are empty |
| Conversation.EntryThenView | EGE_score_bot.py:81-87 | after a parsed entry that fits 64 bits, viewing by the same handle shows exactly the parsed scores |
| Conversation.ParsedScoresNonEmpty | EGE_score_bot.py:84-85 | every successful parse has at least one subject, so an entry is never shown as not-found |
| Conversation.OversizedScoreOverflows | EGE_score_bot.py:85-87 | `subject n` with any `n` outside the signed 64-bit range parses to `{subject: n}`, so the store raises instead of saving |
| Conversation.DeleteThenView | EGE_score_bot.py:121-124 | the delete label, on a handle with at most one record, makes a following view not-found |
| Bot.Session.constructor | EGE_score_bot.py:76 | a fresh `user_data` has no flag set (`get` of a missing key is falsy) |
| Bot.ScoreBot.constructor | EGE_score_bot.py:13 | a newly created `students` collection holds no records |
| Bot.ScoreBot.Start | EGE_score_bot.py:48-59 | `start` replies with the greeting |
| Bot.ScoreBot.Register | EGE_score_bot.py:61-63 | `register` sets `registering` and no other flag, and prompts for the name |
| Bot.ScoreBot.EnterScore | EGE_score_bot.py:65-67 | `enter_score` sets `entering_scores` and no other flag, and prompts for scores |
| Bot.ScoreBot.UpdateScores | EGE_score_bot.py:126-128 | `update_scores` sets `updating_scores` and no other flag, and prompts for scores |
| Bot.ScoreBot.ViewScores | EGE_score_bot.py:109-119 | the reply is the view of the collection for the handle, and its lines list every subject once with its score |
| Bot.ScoreBot.DeleteAccount | EGE_score_bot.py:121-124 | the collection becomes `delete_one` of the old one for the handle |
| Bot.ScoreBot.Help | EGE_score_bot.py:130-141 | `help` replies with the command list |
| Bot.ScoreBot.Dispatch | EGE_score_bot.py:73 | running a handler changes the session and the collection as `Conversation.RunAction` states |
| Bot.ScoreBot.FreeText | EGE_score_bot.py:76-107 | for text that is no label, it takes the first pending flag's branch (`TakeName`, `TakeScores`, `TakeUpdate`) or replies unsupported, and the new flags, collection and reply are those of `Conversation.Step` |
| Bot.ScoreBot.TakeName | EGE_score_bot.py:76-80 | with `registering` pending, the record is appended, the reply names it, and only `registering` is cleared, as `Conversation.Step` states |
| Bot.ScoreBot.TakeScores | EGE_score_bot.py:81-91 | with `entering_scores` first pending, the scores are upserted and the flag cleared, or the format error is replied and the flag cleared, or on an overflow nothing changes, as `Conversation.Step` states |
| Bot.ScoreBot.TakeUpdate | EGE_score_bot.py:92-102 | with `updating_scores` first pending, the first record's scores are replaced (if any), with the same three outcomes, as `Conversation.Step` states |
| Bot.ScoreBot.TextMessage | EGE_score_bot.py:69-107 | the new flags, the new collection and the reply are exactly those of `Conversation.Step` for the old ones |

## Left out

- Telegram plumbing is left out because it consists of framework calls: building the `Application`, registering handlers (`add_handlers`), `run_polling`, the reply keyboard, and the `button` handler for callback queries. Slash commands and labels both reach a handler through `Bot.ScoreBot.Dispatch`.
- `async`/`await` is left out. Each handler is one sequential step, and the framework is assumed to deliver one update at a time per user.
- The MongoDB client, the database and `get_or_create_collection` are left out. The collection is a sequence of records. A query matches by equality of the name, and "first" means insertion order. Database errors (which would end the handler with an exception) are not modelled, except the `OverflowError` for scores beyond 64 bits.
- The exact Russian reply texts, including the greeting and help text, are not modelled. Replies are a tagged value `Conversation.Reply`.
- Conversation.ScoreListing: the order of the reply lines is the dictionary's insertion order in the source. The model promises only that each subject appears exactly once with its score.
- Integers.ParseInt: Python's `int()` also accepts underscores between digits (`1_000`) and non-ASCII decimal digits. Here a score token is only an optional `+`/`-` followed by ASCII digits. Surrounding whitespace cannot occur, because `split()` already removed it.
- ScoreParser.Parse reports one `NotAnInteger` error without naming the subject. The source reports no detail either: the handler catches every `ValueError` alike.
- A record's scores are a map, so the subject order of a stored score dictionary is not modelled.
- Unicode characters are Dafny `char`s (scalar values). Whitespace is Python's `str.isspace` set. Nothing is case-folded or normalised, as in the source.

=== FILE: conversation.dfy ===
/**
 * What one handler invocation does to a session's pending-input flags and to the
 * `students` collection, and what it replies: the handlers `register`,
 * `enter_score`, `update_scores`, `view_scores`, `delete_account`, `help` and
 * `start`, and the free-text handler `text_message` (EGE_score_bot.py:48-141).
 * The classes of module Bot are proved to behave as stated here.
 */
module Conversation {
  import opened Wrappers
  import opened Text
  import opened ScoreParser
  import opened StudentStore

  /** The handlers a command or a button label can run. */
  datatype Action = Start | Register | EnterScores | ViewScores | UpdateScores | DeleteAccount | Help

  /** `button_commands`: each reply-keyboard label and the handler it runs. */
  const ButtonCommands: map<string, Action> := map[
    "Регистрация" := Register,
    "Ввод баллов" := EnterScores,
    "Просмотр баллов" := ViewScores,
    "Обновление баллов" := UpdateScores,
    "Удалить аккаунт" := DeleteAccount,
    "Помощь" := Help
  ]

  /**
   * The three independent entries of `context.user_data`; a missing entry reads
   * as false (`user_data.get(...)` is `None`). Any combination can be set at once.
   */
  datatype Flags = Flags(registering: bool, enteringScores: bool, updatingScores: bool)

  const Idle := Flags(false, false, false)

  /** The parts of an incoming update the handlers read: the text and `chat.username`. */
  datatype Message = Message(text: string, username: Option<string>)

  /** The bot's replies, by meaning rather than by their Russian text. */
  datatype Reply =
    | Greeting
    | NamePrompt
    | ScoresPrompt
    | UpdatePrompt
    | HelpText
    | AccountDeleted
    | Registered(name: string)
    | Saved
    | Updated
    | InvalidFormat
    | Unsupported
    | NotFound
    | ScoreList(scores: Scores)
    /** The handler raised an exception it does not catch: nothing is sent and the rest of the handler does not run. */
    | NoReply

  datatype Outcome = Outcome(flags: Flags, students: seq<Record>, reply: Reply)

  /** `view_scores`: the scores of the first record for the handle, unless there is none or it has none. */
  function View(students: seq<Record>, handle: Option<string>): (r: Reply)
    ensures r.NotFound? || r.ScoreList?
    ensures r.NotFound? <==> (GetScores(students, handle).None? || GetScores(students, handle).value == map[])
    ensures r.ScoreList? ==> Some(r.scores) == GetScores(students, handle)
  {
    match GetScores(students, handle)
    case Some(scores) => if scores != map[] then ScoreList(scores) else NotFound
    case None => NotFound
  }

  /** One command or button handler, run with the session's flags and the account handle. */
  function RunAction(action: Action, flags: Flags, students: seq<Record>, handle: Option<string>): Outcome
  {
    match action
    case Start => Outcome(flags, students, Greeting)
    case Register => Outcome(flags.(registering := true), students, NamePrompt)
    case EnterScores => Outcome(flags.(enteringScores := true), students, ScoresPrompt)
    case ViewScores => Outcome(flags, students, View(students, handle))
    case UpdateScores => Outcome(flags.(updatingScores := true), students, UpdatePrompt)
    case DeleteAccount => Outcome(flags, DeleteOne(students, handle), AccountDeleted)
    case Help => Outcome(flags, students, HelpText)
  }

  /**
   * Text that parses but holds a score outside the signed 64-bit range: `int()`
   * accepts it, but `update_one` then raises `OverflowError`, which the
   * `except ValueError` clauses do not catch.
   */
  predicate Overflows(text: string)
  {
    Parse(text).Success? && !Encodable(Parse(text).value)
  }

  /** `text_message`: a button label first, then the pending flags in priority order. */
  function Step(flags: Flags, students: seq<Record>, msg: Message): Outcome
  {
    var text := Strip(msg.text);
    if text in ButtonCommands then
      RunAction(ButtonCommands[text], flags, students, msg.username)
    else if flags.registering then
      Outcome(flags.(registering := false), Insert(students, Record(Some(text), map[])), Registered(text))
    else if flags.enteringScores then
      var after := flags.(enteringScores := false);
      match Parse(text)
      case Success(scores) =>
        if Encodable(scores) then Outcome(after, SetScores(students, msg.username, scores, true), Saved)
        else Outcome(flags, students, NoReply)
      case Failure(_) => Outcome(after, students, InvalidFormat)
    else if flags.updatingScores then
      var after := flags.(updatingScores := false);
      match Parse(text)
      case Success(scores) =>
        if Encodable(scores) then Outcome(after, SetScores(students, msg.username, scores, false), Updated)
        else Outcome(flags, students, NoReply)
      case Failure(_) => Outcome(after, students, InvalidFormat)
    else
      Outcome(flags, students, Unsupported)
  }

  /**
   * The loop that writes the reply of `view_scores`: one `subject: score` line per
   * subject. The order of the lines is the dictionary's, which is not modelled;
   * the lines list every subject exactly once with its score.
   */
  method ScoreListing(scores: Scores) returns (lines: seq<(string, int)>)
    ensures |lines| == |scores|
    ensures forall i :: 0 <= i < |lines| ==> lines[i].0 in scores && scores[lines[i].0] == lines[i].1
    ensures forall i, j :: 0 <= i < j < |lines| ==> lines[i].0 != lines[j].0
    ensures forall subject :: subject in scores ==> (subject, scores[subject]) in lines
  {
    lines := [];
    var rest := scores.Keys;
    while rest != {}
      invariant rest <= scores.Keys
      invariant |lines| + |rest| == |scores|
      invariant forall i :: 0 <= i < |lines| ==> lines[i].0 in scores.Keys - rest && scores[lines[i].0] == lines[i].1
      invariant forall i, j :: 0 <= i < j < |lines| ==> lines[i].0 != lines[j].0
      invariant forall subject :: subject in scores.Keys - rest ==> (subject, scores[subject]) in lines
      decreases |rest|
    {
      var subject :| subject in rest;
      lines := lines + [(subject, scores[subject])];
      rest := rest - {subject};
    }
  }

  // ------------------------------------------------------------------ lemmas

  /** The keyboard offers six labels, one per handler except `start`. */
  lemma ButtonTable()
    ensures |ButtonCommands| == 6
    ensures forall a: Action :: a in ButtonCommands.Values <==> a != Start
  {
    assert ButtonCommands["Регистрация"] == Register;
    assert ButtonCommands["Ввод баллов"] == EnterScores;
    assert ButtonCommands["Просмотр баллов"] == ViewScores;
    assert ButtonCommands["Обновление баллов"] == UpdateScores;
    assert ButtonCommands["Удалить аккаунт"] == DeleteAccount;
    assert ButtonCommands["Помощь"] == Help;
  }

  /**
   * A handler run by a command or a label clears no flag and can only set its
   * own; only `delete_account` touches the collection.
   */
  lemma ActionEffects(action: Action, flags: Flags, students: seq<Record>, handle: Option<string>)
    ensures var o := RunAction(action, flags, students, handle);
      && o.flags.registering == (flags.registering || action == Register)
      && o.flags.enteringScores == (flags.enteringScores || action == EnterScores)
      && o.flags.updatingScores == (flags.updatingScores || action == UpdateScores)
      && o.students == (if action == DeleteAccount then DeleteOne(students, handle) else students)
      && o.reply != Unsupported && o.reply != InvalidFormat && o.reply != NoReply
  {
  }

  /**
   * A button label runs its handler before any pending flag is looked at, so the
   * pending input stays pending.
   */
  lemma ButtonLabelFirst(flags: Flags, students: seq<Record>, msg: Message)
    requires Strip(msg.text) in ButtonCommands
    ensures Step(flags, students, msg) == RunAction(ButtonCommands[Strip(msg.text)], flags, students, msg.username)
    ensures var o := Step(flags, students, msg);
      && (flags.registering ==> o.flags.registering)
      && (flags.enteringScores ==> o.flags.enteringScores)
      && (flags.updatingScores ==> o.flags.updatingScores)
  {
    ActionEffects(ButtonCommands[Strip(msg.text)], flags, students, msg.username);
  }

  /**
   * Free text that is no label is taken by the first set flag in the order
   * registering, entering, updating; that flag alone is cleared, whether or not
   * the text parses.
   */
  lemma PendingFlagOrder(flags: Flags, students: seq<Record>, msg: Message)
    requires Strip(msg.text) !in ButtonCommands
    ensures var o := Step(flags, students, msg);
      && (flags.registering ==> o.flags == flags.(registering := false) && o.reply.Registered?)
      && (!flags.registering && flags.enteringScores ==>
            if Overflows(Strip(msg.text)) then o == Outcome(flags, students, NoReply)
            else o.flags == flags.(enteringScores := false) && (o.reply == Saved || o.reply == InvalidFormat))
      && (!flags.registering && !flags.enteringScores && flags.updatingScores ==>
            if Overflows(Strip(msg.text)) then o == Outcome(flags, students, NoReply)
            else o.flags == flags.(updatingScores := false) && (o.reply == Updated || o.reply == InvalidFormat))
      && (flags == Idle ==> o == Outcome(Idle, students, Unsupported))
  {
    var text := Strip(msg.text);
    var o := Step(flags, students, msg);
    if flags.registering {
      assert o.flags == flags.(registering := false) && o.reply == Registered(text);
    } else if flags.enteringScores {
      if Overflows(text) {
        assert o == Outcome(flags, students, NoReply);
      } else {
        assert o.flags == flags.(enteringScores := false);
        assert o.reply == (if Parse(text).Success? then Saved else InvalidFormat);
      }
    } else if flags.updatingScores {
      if Overflows(text) {
        assert o == Outcome(flags, students, NoReply);
      } else {
        assert o.flags == flags.(updatingScores := false);
        assert o.reply == (if Parse(text).Success? then Updated else InvalidFormat);
      }
    } else {
      assert o == Outcome(flags, students, Unsupported);
    }
  }

  /** Registration appends a record with the stripped text as name and no scores, even if that name exists. */
  lemma RegistrationAppends(flags: Flags, students: seq<Record>, msg: Message)
    requires Strip(msg.text) !in ButtonCommands && flags.registering
    ensures var o, name := Step(flags, students, msg), Some(Strip(msg.text));
      && o.students == students + [Record(name, map[])]
      && Count(o.students, name) == Count(students, name) + 1
      && o.reply == Registered(Strip(msg.text))
  {
    var name := Some(Strip(msg.text));
    CountAppend(students, [Record(name, map[])], name);
    assert [Record(name, map[])][1..] == [];
  }

  /**
   * Score entry upserts: the handle then finds exactly the parsed scores, on a
   * single new record if it had none, and no other name's record changes. A
   * score outside 64 bits instead ends the handler with no reply, no write and
   * the flag still set.
   */
  lemma EntryUpserts(flags: Flags, students: seq<Record>, msg: Message, other: Option<string>)
    requires Strip(msg.text) !in ButtonCommands && !flags.registering && flags.enteringScores
    requires Parse(Strip(msg.text)).Success?
    requires other != msg.username
    ensures var o := Step(flags, students, msg);
      Overflows(Strip(msg.text)) ==> o == Outcome(flags, students, NoReply)
    ensures var o, handle := Step(flags, students, msg), msg.username;
      !Overflows(Strip(msg.text)) ==>
        && o.reply == Saved
        && o.flags == flags.(enteringScores := false)
        && GetScores(o.students, handle) == Some(Parse(Strip(msg.text)).value)
        && Count(o.students, handle) == (if Count(students, handle) == 0 then 1 else Count(students, handle))
        && GetScores(o.students, other) == GetScores(students, other)
    ensures var o, handle := Step(flags, students, msg), msg.username;
      !Overflows(Strip(msg.text)) && Count(students, handle) == 0 ==>
        o.students == students + [Record(handle, Parse(Strip(msg.text)).value)]
    ensures var o, handle := Step(flags, students, msg), msg.username;
      !Overflows(Strip(msg.text)) && Count(students, handle) > 0 ==>
        && FindIndex(students, handle).Some?
        && |o.students| == |students|
        && o.students[FindIndex(students, handle).value] == Record(handle, Parse(Strip(msg.text)).value)
        && DeleteOne(o.students, handle) == DeleteOne(students, handle)
  {
    var scores := Parse(Strip(msg.text)).value;
    CountFound(students, msg.username);
    SetScoresThenGet(students, msg.username, scores, true);
    UpsertKeepsCount(students, msg.username, scores);
    SetScoresLeavesOthers(students, msg.username, scores, true, other);
    if Count(students, msg.username) > 0 {
      SetScoresOnlyFirstMatch(students, msg.username, scores, true);
    }
  }

  /** A score update for a handle with no record changes nothing in the collection and creates no record. */
  lemma UpdateOfAbsentHandle(flags: Flags, students: seq<Record>, msg: Message)
    requires Strip(msg.text) !in ButtonCommands && !flags.registering && !flags.enteringScores && flags.updatingScores
    requires Count(students, msg.username) == 0
    ensures var o, text := Step(flags, students, msg), Strip(msg.text);
      && o.students == students
      && o.reply == (if Overflows(text) then NoReply else if Parse(text).Success? then Updated else InvalidFormat)
      && o.flags == (if Overflows(text) then flags else flags.(updatingScores := false))
  {
    CountFound(students, msg.username);
  }

  /**
   * A score update for a handle with a record replaces the scores of its first
   * record and nothing else: removing that record from before and after gives
   * the same collection, and no other name's lookup changes.
   */
  lemma UpdateOfPresentHandle(flags: Flags, students: seq<Record>, msg: Message, other: Option<string>)
    requires Strip(msg.text) !in ButtonCommands && !flags.registering && !flags.enteringScores && flags.updatingScores
    requires Count(students, msg.username) > 0
    requires Parse(Strip(msg.text)).Success?
    requires other != msg.username
    ensures var o := Step(flags, students, msg);
      Overflows(Strip(msg.text)) ==> o == Outcome(flags, students, NoReply)
    ensures var o, handle := Step(flags, students, msg), msg.username;
      !Overflows(Strip(msg.text)) ==>
        && o.reply == Updated
        && o.flags == flags.(updatingScores := false)
        && GetScores(o.students, handle) == Some(Parse(Strip(msg.text)).value)
        && FindIndex(students, handle).Some?
        && |o.students| == |students|
        && o.students[FindIndex(students, handle).value] == Record(handle, Parse(Strip(msg.text)).value)
        && DeleteOne(o.students, handle) == DeleteOne(students, handle)
        && GetScores(o.students, other) == GetScores(students, other)
  {
    var scores := Parse(Strip(msg.text)).value;
    CountFound(students, msg.username);
    SetScoresThenGet(students, msg.username, scores, false);
    SetScoresOnlyFirstMatch(students, msg.username, scores, false);
    SetScoresLeavesOthers(students, msg.username, scores, false, other);
  }

  /** Text that does not parse leaves the collection as it was and replies with the format error. */
  lemma ParseFailureKeepsStore(flags: Flags, students: seq<Record>, msg: Message)
    requires Strip(msg.text) !in ButtonCommands && !flags.registering
    requires flags.enteringScores || flags.updatingScores
    requires Parse(Strip(msg.text)).Failure?
    ensures Step(flags, students, msg).students == students
    ensures Step(flags, students, msg).reply == InvalidFormat
  {
  }

  /**
   * A session waiting for exactly one input is idle after the next free text,
   * whether it parses or not. The exception is scores that overflow 64 bits:
   * then the handler stops before clearing the flag.
   */
  lemma SingleFlagReturnsToIdle(flags: Flags, students: seq<Record>, msg: Message)
    requires Strip(msg.text) !in ButtonCommands
    requires flags in {Flags(true, false, false), Flags(false, true, false), Flags(false, false, true)}
    ensures Step(flags, students, msg).flags == (if !flags.registering && Overflows(Strip(msg.text)) then flags else Idle)
  {
  }

  /**
   * After that, a second free text is not read as a name or as scores: it gets
   * the unsupported-message reply and changes nothing.
   */
  lemma SecondTextUnsupported(flags: Flags, students: seq<Record>, first: Message, second: Message)
    requires Strip(first.text) !in ButtonCommands && Strip(second.text) !in ButtonCommands
    requires flags in {Flags(true, false, false), Flags(false, true, false), Flags(false, false, true)}
    ensures var o := Step(flags, students, first);
      o.reply != NoReply ==> Step(o.flags, o.students, second) == Outcome(Idle, o.students, Unsupported)
    ensures var o := Step(flags, students, first);
      o.reply == NoReply ==> o == Outcome(flags, students, NoReply)
  {
    var o := Step(flags, students, first);
    PendingFlagOrder(flags, students, first);
    SingleFlagReturnsToIdle(flags, students, first);
    if o.reply != NoReply {
      assert o.flags == Idle;
      PendingFlagOrder(Idle, o.students, second);
    }
  }

  /**
   * Flags set by two prompts are consumed one text at a time: a name typed after
   * pressing both registration and score entry leaves the entry pending, so the
   * following text is parsed as scores.
   */
  lemma PendingEntrySurvivesRegistration(students: seq<Record>, name: Message, scores: Message)
    requires Strip(name.text) !in ButtonCommands && Strip(scores.text) !in ButtonCommands
    ensures var o := Step(Flags(true, true, false), students, name);
      && o.flags == Flags(false, true, false)
      && Step(o.flags, o.students, scores).reply ==
        (if Overflows(Strip(scores.text)) then NoReply
         else if Parse(Strip(scores.text)).Success? then Saved else InvalidFormat)
  {
  }

  /**
   * Registration keys the record by the typed name, but viewing keys it by the
   * account handle: a handle that had no record still finds nothing, and even a
   * handle equal to the typed name finds only the new record's empty scores.
   */
  lemma RegisteredNameNotFoundByHandle(flags: Flags, students: seq<Record>, msg: Message, handle: Option<string>)
    requires Strip(msg.text) !in ButtonCommands && flags.registering
    requires Count(students, handle) == 0
    ensures View(Step(flags, students, msg).students, handle) == NotFound
  {
    var name := Some(Strip(msg.text));
    var after := students + [Record(name, map[])];
    CountFound(students, handle);
    if handle == name {
      FirstMatch(after, handle, |students|);
    } else {
      CountAppend(students, [Record(name, map[])], handle);
      assert [Record(name, map[])][1..] == [];
      CountFound(after, handle);
    }
  }

  /** Entering a score list that is stored and then viewing shows exactly that list. */
  lemma EntryThenView(flags: Flags, students: seq<Record>, msg: Message)
    requires Strip(msg.text) !in ButtonCommands && !flags.registering && flags.enteringScores
    requires Parse(Strip(msg.text)).Success?
    ensures !Overflows(Strip(msg.text)) ==>
      View(Step(flags, students, msg).students, msg.username) == ScoreList(Parse(Strip(msg.text)).value)
  {
    SetScoresThenGet(students, msg.username, Parse(Strip(msg.text)).value, true);
    ParsedScoresNonEmpty(Strip(msg.text));
  }

  /** Every successful parse has at least one subject (an empty text is a format error). */
  lemma ParsedScoresNonEmpty(text: string)
    requires Parse(text).Success?
    ensures Parse(text).value != map[]
  {
    ParseValues(text);
    var toks := Tokenize(text);
    assert toks[0][0] in Parse(text).value;
  }

  /**
   * The overflow is reachable from user input: `subject n` with any `n` beyond
   * the signed 64-bit range parses, so the handler stops with `OverflowError`.
   */
  lemma OversizedScoreOverflows(subject: string, n: int)
    requires IsSubject(subject) && (n < Int64Min || n > Int64Max)
    ensures Parse(Entry((subject, n))) == Success(map[subject := n])
    ensures Overflows(Entry((subject, n)))
  {
    var entries := [(subject, n)];
    assert Render(entries) == Entry((subject, n)) by {
      assert Segments(entries) == ["" + Entry((subject, n))];
      assert "" + Entry((subject, n)) == Entry((subject, n));
    }
    RoundTrip(entries);
    assert Dict(entries) == map[subject := n] by {
      assert entries[..0] == [];
    }
    assert subject in map[subject := n];
  }

  /** The delete label removes the handle's record so that a view finds nothing, when it had at most one. */
  lemma DeleteThenView(flags: Flags, students: seq<Record>, msg: Message)
    requires Strip(msg.text) in ButtonCommands && ButtonCommands[Strip(msg.text)] == DeleteAccount
    requires Count(students, msg.username) <= 1
    ensures View(Step(flags, students, msg).students, msg.username) == NotFound
  {
    ButtonLabelFirst(flags, students, msg);
    ActionEffects(DeleteAccount, flags, students, msg.username);
    var after := DeleteOne(students, msg.username);
    assert Step(flags, students, msg).students == after;
    DeleteThenNotFound(students, msg.username);
    assert GetScores(after, msg.username) == None;
  }
}

=== FILE: integers.dfy ===
/**
 * Decimal integers as the score parser reads them with Python's `int(token)`,
 * restricted to an optional sign followed by ASCII digits, and their canonical rendering.
 */
module Integers {
  import opened Wrappers
  import Text

  predicate IsDigit(c: char)
  {
    '0' <= c <= '9'
  }

  predicate AllDigits(s: string)
  {
    forall i :: 0 <= i < |s| ==> IsDigit(s[i])
  }

  /** A token `int()` accepts here: an optional `+` or `-` and at least one digit. */
  predicate IsIntLiteral(s: string)
  {
    |s| > 0 &&
    if s[0] == '+' || s[0] == '-' then |s| > 1 && AllDigits(s[1..]) else AllDigits(s)
  }

  function DigitValue(c: char): (d: nat)
    requires IsDigit(c)
    ensures d < 10
  {
    c as int - '0' as int
  }

  function DigitChar(d: nat): (c: char)
    requires d < 10
    ensures IsDigit(c) && DigitValue(c) == d
  {
    ('0' as int + d) as char
  }

  /** Base-10 value of a string of digits, leading zeros allowed. */
  function DigitsValue(s: string): nat
    requires AllDigits(s)
  {
    if |s| == 0 then 0 else DigitsValue(s[..|s| - 1]) * 10 + DigitValue(s[|s| - 1])
  }

  /** `int(s)`: `None` is the `ValueError` Python raises. */
  function ParseInt(s: string): (r: Option<int>)
    ensures r.Some? <==> IsIntLiteral(s)
    ensures r.Some? && s[0] == '-' ==> r.value <= 0
    ensures r.Some? && s[0] != '-' ==> r.value >= 0
  {
    if |s| == 0 then None
    else if s[0] == '-' || s[0] == '+' then
      var digits := s[1..];
      if |digits| > 0 && AllDigits(digits) then
        var magnitude: int := DigitsValue(digits);
        Some(if s[0] == '-' then -magnitude else magnitude)
      else None
    else if AllDigits(s) then Some(DigitsValue(s))
    else None
  }

  function NatToString(n: nat): (s: string)
    ensures |s| > 0 && AllDigits(s)
  {
    if n < 10 then [DigitChar(n)] else NatToString(n / 10) + [DigitChar(n % 10)]
  }

  /** `str(n)`: the decimal rendering of a score, with a `-` for negatives. */
  function IntToString(n: int): (s: string)
    ensures |s| > 0 && Text.NoSpace(s) && ',' !in s
  {
    if n < 0 then "-" + NatToString(-n) else NatToString(n)
  }

  lemma {:induction false} DigitsValueOfNatToString(n: nat)
    ensures DigitsValue(NatToString(n)) == n
  {
    var s := NatToString(n);
    if n >= 10 {
      DigitsValueOfNatToString(n / 10);
      assert s[..|s| - 1] == NatToString(n / 10);
    }
  }

  /** `int(str(n)) == n` for every integer. */
  lemma ParseIntToString(n: int)
    ensures ParseInt(IntToString(n)) == Some(n)
  {
    var s := IntToString(n);
    if n < 0 {
      var digits := NatToString(-n);
      DigitsValueOfNatToString(-n);
      assert s[0] == '-' && s[1..] == digits;
    } else {
      DigitsValueOfNatToString(n);
      assert IsDigit(s[0]);
    }
  }

  /** A leading `+` does not change the value. */
  lemma ParseIntPlus(d: string)
    requires |d| > 0 && AllDigits(d)
    ensures ParseInt("+" + d) == ParseInt(d)
  {
    assert ("+" + d)[1..] == d;
    assert IsDigit(d[0]);
  }

  /** A leading `-` negates the value; so `-0` is 0. */
  lemma ParseIntMinus(d: string)
    requires |d| > 0 && AllDigits(d)
    ensures ParseInt("-" + d) == Some(-ParseInt(d).value)
  {
    assert ("-" + d)[1..] == d;
    assert IsDigit(d[0]);
  }

  lemma {:induction false} DigitsValueLeadingZero(d: string)
    requires AllDigits(d)
    ensures AllDigits("0" + d) && DigitsValue("0" + d) == DigitsValue(d)
    decreases |d|
  {
    var z := "0" + d;
    assert AllDigits(z) by {
      forall i | 0 <= i < |z|
        ensures IsDigit(z[i])
      {
        if i > 0 {
          assert z[i] == d[i - 1];
        }
      }
    }
    if |d| > 0 {
      assert z[..|z| - 1] == "0" + d[..|d| - 1];
      assert z[|z| - 1] == d[|d| - 1];
      DigitsValueLeadingZero(d[..|d| - 1]);
    }
  }

  /** Leading zeros do not change the value (`060` is 60). */
  lemma ParseIntLeadingZero(d: string)
    requires |d| > 0 && AllDigits(d)
    ensures ParseInt("0" + d) == ParseInt(d)
  {
    DigitsValueLeadingZero(d);
    assert IsDigit(d[0]);
    assert IsDigit(("0" + d)[0]);
  }
}

=== FILE: score_bot.dfy ===
/**
 * The bot object `EGE_Score_Bot` and a user's `context.user_data`, as classes
 * whose handler methods update them in place. Each method is proved to do what
 * module Conversation states of the corresponding handler.
 */
module Bot {
  import opened Wrappers
  import opened Text
  import opened ScoreParser
  import opened StudentStore
  import opened Conversation

  /** One user's `context.user_data`: the pending-input flags, all unset at first. */
  class Session {
    var registering: bool
    var enteringScores: bool
    var updatingScores: bool

    constructor ()
      ensures Pending() == Idle
    {
      registering, enteringScores, updatingScores := false, false, false;
    }

    function Pending(): Flags
      reads this
    {
      Flags(registering, enteringScores, updatingScores)
    }
  }

  /** The bot: the `students` collection and the handlers that read and write it. */
  class ScoreBot {
    var students: seq<Record>

    constructor ()
      ensures students == []
    {
      students := [];
    }

    /** `start`: the greeting with the keyboard. */
    method Start() returns (reply: Reply)
      ensures reply == Greeting
    {
      reply := Greeting;
    }

    /** `register`: asks for the name and marks it as the pending input. */
    method Register(session: Session) returns (reply: Reply)
      modifies session
      ensures session.Pending() == old(session.Pending()).(registering := true)
      ensures reply == NamePrompt
    {
      reply := NamePrompt;
      session.registering := true;
    }

    /** `enter_score`: asks for a score list and marks entry as pending. */
    method EnterScore(session: Session) returns (reply: Reply)
      modifies session
      ensures session.Pending() == old(session.Pending()).(enteringScores := true)
      ensures reply == ScoresPrompt
    {
      reply := ScoresPrompt;
      session.enteringScores := true;
    }

    /** `update_scores`: asks for a score list and marks the update as pending. */
    method UpdateScores(session: Session) returns (reply: Reply)
      modifies session
      ensures session.Pending() == old(session.Pending()).(updatingScores := true)
      ensures reply == UpdatePrompt
    {
      reply := UpdatePrompt;
      session.updatingScores := true;
    }

    /**
     * `view_scores`: the scores of the handle's first record, and the lines of the
     * reply text, one per subject; not found when there is no record or it has no scores.
     */
    method ViewScores(handle: Option<string>) returns (reply: Reply, lines: seq<(string, int)>)
      ensures reply == View(students, handle)
      ensures reply.NotFound? ==> lines == []
      ensures reply.ScoreList? ==>
        && |lines| == |reply.scores|
        && (forall i :: 0 <= i < |lines| ==> lines[i].0 in reply.scores && reply.scores[lines[i].0] == lines[i].1)
        && (forall subject :: subject in reply.scores ==> (subject, reply.scores[subject]) in lines)
    {
      var student := GetScores(students, handle);
      if student.Some? && student.value != map[] {
        reply := ScoreList(student.value);
        lines := ScoreListing(student.value);
      } else {
        reply := NotFound;
        lines := [];
      }
    }

    /** `delete_account`: removes the handle's first record, if any. */
    method DeleteAccount(handle: Option<string>) returns (reply: Reply)
      modifies this
      ensures students == DeleteOne(old(students), handle)
      ensures reply == AccountDeleted
    {
      students := DeleteOne(students, handle);
      reply := AccountDeleted;
    }

    /** `help`: the list of commands. */
    method Help() returns (reply: Reply)
      ensures reply == HelpText
    {
      reply := HelpText;
    }

    /** Runs the handler a command or a button label names. */
    method Dispatch(action: Action, session: Session, msg: Message) returns (reply: Reply)
      modifies this, session
      ensures Outcome(session.Pending(), students, reply) ==
        RunAction(action, old(session.Pending()), old(students), msg.username)
    {
      match action {
        case Start => reply := Start();
        case Register => reply := Register(session);
        case EnterScores => reply := EnterScore(session);
        case ViewScores =>
          var lines;
          reply, lines := ViewScores(msg.username);
        case UpdateScores => reply := UpdateScores(session);
        case DeleteAccount => reply := DeleteAccount(msg.username);
        case Help => reply := Help();
      }
    }

    /**
     * `text_message`: a button label runs its handler; otherwise the first pending
     * flag takes the text and is cleared, whether or not the text parses.
     */
    method TextMessage(session: Session, msg: Message) returns (reply: Reply)
      modifies this, session
      ensures Outcome(session.Pending(), students, reply) == Step(old(session.Pending()), old(students), msg)
    {
      var text := Strip(msg.text);
      if text in ButtonCommands {
        ButtonLabelFirst(session.Pending(), students, msg);
        reply := Dispatch(ButtonCommands[text], session, msg);
      } else {
        reply := FreeText(session, msg);
      }
    }

    /** The branches of `text_message` after the label check: the first pending flag takes the text. */
    method FreeText(session: Session, msg: Message) returns (reply: Reply)
      requires Strip(msg.text) !in ButtonCommands
      modifies this, session
      ensures Outcome(session.Pending(), students, reply) == Step(old(session.Pending()), old(students), msg)
    {
      if session.registering {
        reply := TakeName(session, msg);
      } else if session.enteringScores {
        reply := TakeScores(session, msg);
      } else if session.updatingScores {
        reply := TakeUpdate(session, msg);
      } else {
        assert session.Pending() == Idle;
        reply := Unsupported;
      }
    }

    /** Lines 76-80: the text is the name of a new record. */
    method TakeName(session: Session, msg: Message) returns (reply: Reply)
      requires Strip(msg.text) !in ButtonCommands && session.registering
      modifies this, session
      ensures Outcome(session.Pending(), students, reply) == Step(old(session.Pending()), old(students), msg)
    {
      var name := Strip(msg.text);
      students := Insert(students, Record(Some(name), map[]));
      reply := Registered(name);
      session.registering := false;
    }

    /** Lines 81-91: the text is a score list, saved with an upsert under the account handle. */
    method TakeScores(session: Session, msg: Message) returns (reply: Reply)
      requires Strip(msg.text) !in ButtonCommands && !session.registering && session.enteringScores
      modifies this, session
      ensures Outcome(session.Pending(), students, reply) == Step(old(session.Pending()), old(students), msg)
    {
      var parsed := Parse(Strip(msg.text));
      if parsed.Failure? {
        reply := InvalidFormat;
        session.enteringScores := false;
      } else if !Encodable(parsed.value) {
        // update_one raises OverflowError, which escapes the handler
        reply := NoReply;
      } else {
        students := SetScores(students, msg.username, parsed.value, true);
        reply := Saved;
        session.enteringScores := false;
      }
    }

    /** Lines 92-102: the text is a score list that replaces the scores of the handle's first record, if any. */
    method TakeUpdate(session: Session, msg: Message) returns (reply: Reply)
      requires Strip(msg.text) !in ButtonCommands && !session.registering && !session.enteringScores
      requires session.updatingScores
      modifies this, session
      ensures Outcome(session.Pending(), students, reply) == Step(old(session.Pending()), old(students), msg)
    {
      var parsed := Parse(Strip(msg.text));
      if parsed.Failure? {
        reply := InvalidFormat;
        session.updatingScores := false;
      } else if !Encodable(parsed.value) {
        // update_one raises OverflowError, which escapes the handler
        reply := NoReply;
      } else {
        students := SetScores(students, msg.username, parsed.value, false);
        reply := Updated;
        session.updatingScores := false;
      }
    }
  }
}

=== FILE: score_parser.dfy ===
/**
 * The score-list parser of the entry and update branches (EGE_score_bot.py:84-85, 95-96):
 *
 *   1. split the text on `,`;
 *   2. split every segment on runs of whitespace; `dict(...)` demands exactly two
 *      tokens per segment (subject and score) and keeps the last score token of a
 *      repeated subject;
 *   3. convert every score token that survived step 2 with `int(...)`.
 *
 * Both failures are Python's `ValueError`, reported here as a `FormatError`.
 */
module ScoreParser {
  import opened Wrappers
  import opened Text
  import opened Integers

  datatype FormatError =
    | WrongTokenCount(segment: nat, count: nat)  // `dict` saw a segment that is not a pair
    | NotAnInteger                               // `int` refused a surviving score token

  type Scores = map<string, int>

  /** The whitespace-separated tokens of every comma-separated segment, in order. */
  function Tokenize(text: string): seq<seq<string>>
  {
    var segments := Split(text, ',');
    seq(|segments|, i requires 0 <= i < |segments| => Words(segments[i]))
  }

  /**
   * What `dict(...)` demands of its argument: each item a pair. `offset` is the
   * index of `items[0]` among all segments; the error names the first bad segment.
   */
  function Pairs(items: seq<seq<string>>, offset: nat): (r: Result<seq<(string, string)>, FormatError>)
    ensures r.Success? ==>
      |r.value| == |items| &&
      forall i :: 0 <= i < |items| ==> |items[i]| == 2 && r.value[i] == (items[i][0], items[i][1])
    ensures r.Failure? ==>
      r.error.WrongTokenCount? &&
      offset <= r.error.segment < offset + |items| &&
      |items[r.error.segment - offset]| == r.error.count != 2 &&
      forall j :: 0 <= j < r.error.segment - offset ==> |items[j]| == 2
    decreases |items|
  {
    if |items| == 0 then Success([])
    else if |items[0]| != 2 then Failure(WrongTokenCount(offset, |items[0]|))
    else
      match Pairs(items[1..], offset + 1)
      case Failure(e) => Failure(e)
      case Success(rest) => Success([(items[0][0], items[0][1])] + rest)
  }

  /** Entry `i` is the last one with its key: no later entry has the same key. */
  predicate LastOf<V>(kvs: seq<(string, V)>, i: int)
  {
    0 <= i < |kvs| && forall j :: i < j < |kvs| ==> kvs[j].0 != kvs[i].0
  }

  /** The keys of `kvs`, in no order. */
  function KeysOf<V>(kvs: seq<(string, V)>): set<string>
  {
    set i | 0 <= i < |kvs| :: kvs[i].0
  }

  lemma KeysOfSnoc<V>(kvs: seq<(string, V)>)
    requires |kvs| > 0
    ensures KeysOf(kvs) == KeysOf(kvs[..|kvs| - 1]) + {kvs[|kvs| - 1].0}
  {
    var init := kvs[..|kvs| - 1];
    forall k | k in KeysOf(kvs) ensures k in KeysOf(init) + {kvs[|kvs| - 1].0} {
      var i :| 0 <= i < |kvs| && kvs[i].0 == k;
      if i < |init| {
        assert init[i].0 == k;
      }
    }
    forall k | k in KeysOf(init) ensures k in KeysOf(kvs) {
      var i :| 0 <= i < |init| && init[i].0 == k;
      assert kvs[i].0 == k;
    }
  }

  /** `dict(kvs)`: the keys of `kvs`; a repeated key keeps the value of its last entry. */
  function Dict<V>(kvs: seq<(string, V)>): (m: map<string, V>)
    ensures m.Keys == KeysOf(kvs)
  {
    if |kvs| == 0 then map[]
    else
      var init, last := kvs[..|kvs| - 1], kvs[|kvs| - 1];
      KeysOfSnoc(kvs);
      Dict(init)[last.0 := last.1]
  }

  /** The value `dict` keeps for a key is the one of the key's last entry. */
  lemma {:induction false} DictLastWins<V>(kvs: seq<(string, V)>, i: int)
    requires LastOf(kvs, i)
    ensures Dict(kvs)[kvs[i].0] == kvs[i].1
    decreases |kvs|
  {
    var n := |kvs| - 1;
    if i < n {
      var init := kvs[..n];
      assert LastOf(init, i) && init[i] == kvs[i];
      DictLastWins(init, i);
    }
  }

  /** The dictionary comprehension `{subject: int(score) ...}`: every value must convert. */
  function ConvertScores(raw: map<string, string>): (r: Result<Scores, FormatError>)
  {
    if forall k | k in raw :: ParseInt(raw[k]).Some? then
      Success(map k | k in raw :: ParseInt(raw[k]).value)
    else
      Failure(NotAnInteger)
  }

  /** `scores_text` to a subject-to-score map, or the `ValueError` the handler catches. */
  function Parse(text: string): Result<Scores, FormatError>
  {
    match Pairs(Tokenize(text), 0)
    case Failure(e) => Failure(e)
    case Success(pairs) => ConvertScores(Dict(pairs))
  }

  // ------------------------------------------------------------- reference view

  predicate TwoTokensEach(toks: seq<seq<string>>)
  {
    forall i :: 0 <= i < |toks| ==> |toks[i]| == 2
  }

  /** Segment `i` is a pair and no later pair names the same subject. */
  predicate LastForSubject(toks: seq<seq<string>>, i: int)
  {
    0 <= i < |toks| && |toks[i]| == 2 &&
    forall j :: i < j < |toks| && |toks[j]| == 2 ==> toks[j][0] != toks[i][0]
  }

  /**
   * The texts the parser accepts, stated on the segments directly: every segment
   * is a subject and a score token, and the score token of the last segment naming
   * each subject is an integer (an earlier, overridden score token is never converted).
   */
  predicate WellFormed(text: string)
  {
    var toks := Tokenize(text);
    TwoTokensEach(toks) && forall i :: 0 <= i < |toks| && LastForSubject(toks, i) ==> IsIntLiteral(toks[i][1])
  }

  lemma PairsOfTokens(text: string) returns (pairs: seq<(string, string)>)
    requires TwoTokensEach(Tokenize(text))
    ensures Pairs(Tokenize(text), 0) == Success(pairs)
    ensures |pairs| == |Tokenize(text)|
    ensures forall i :: 0 <= i < |pairs| ==> pairs[i] == (Tokenize(text)[i][0], Tokenize(text)[i][1])
    ensures forall i :: LastOf(pairs, i) <==> LastForSubject(Tokenize(text), i)
  {
    pairs := Pairs(Tokenize(text), 0).value;
  }

  /** The parser succeeds exactly on well-formed texts. */
  lemma ParseSucceedsIff(text: string)
    ensures Parse(text).Success? <==> WellFormed(text)
  {
    var toks := Tokenize(text);
    if TwoTokensEach(toks) {
      var pairs := PairsOfTokens(text);
      var raw := Dict(pairs);
      if WellFormed(text) {
        forall k | k in raw ensures ParseInt(raw[k]).Some? {
          var i := LastIndex(pairs, k);
          assert LastForSubject(toks, i);
          DictLastWins(pairs, i);
        }
      } else {
        var i :| LastForSubject(toks, i) && !IsIntLiteral(toks[i][1]);
        assert LastOf(pairs, i);
        DictLastWins(pairs, i);
      }
    }
  }

  /** The last entry that carries key `k`. */
  lemma {:induction false} LastIndex<V>(kvs: seq<(string, V)>, k: string) returns (i: nat)
    requires k in KeysOf(kvs)
    ensures LastOf(kvs, i) && kvs[i].0 == k
    decreases |kvs|
  {
    var n := |kvs| - 1;
    if kvs[n].0 == k {
      i := n;
    } else {
      KeysOfSnoc(kvs);
      i := LastIndex(kvs[..n], k);
      assert kvs[..n][i] == kvs[i];
    }
  }

  /**
   * On success the keys are exactly the subjects, and each subject maps to the
   * integer value of the score token of the last segment that names it.
   */
  lemma ParseValues(text: string)
    requires Parse(text).Success?
    ensures var toks, scores := Tokenize(text), Parse(text).value;
      && TwoTokensEach(toks)
      && scores.Keys == (set i | 0 <= i < |toks| :: toks[i][0])
      && forall i :: LastForSubject(toks, i) ==> Some(scores[toks[i][0]]) == ParseInt(toks[i][1])
  {
    var toks := Tokenize(text);
    var pairs := PairsOfTokens(text);
    assert (set i | 0 <= i < |toks| :: toks[i][0]) == KeysOf(pairs);
    forall i | LastForSubject(toks, i) ensures Some(Parse(text).value[toks[i][0]]) == ParseInt(toks[i][1]) {
      assert LastOf(pairs, i);
      DictLastWins(pairs, i);
    }
  }

  /** A shape error names the first segment that is not a subject and a score, and its token count. */
  lemma ParseWrongTokenCount(text: string)
    ensures (Parse(text).Failure? && Parse(text).error.WrongTokenCount?) <==> !TwoTokensEach(Tokenize(text))
    ensures Parse(text).Failure? && Parse(text).error.WrongTokenCount? ==>
      var toks, e := Tokenize(text), Parse(text).error;
      && e.segment < |toks| && |toks[e.segment]| == e.count != 2
      && forall j :: 0 <= j < e.segment ==> |toks[j]| == 2
  {
    if TwoTokensEach(Tokenize(text)) {
      var pairs := PairsOfTokens(text);
    }
  }

  /** A blank segment (no tokens) makes the whole text a format error. */
  lemma BlankSegmentFails(text: string, i: nat)
    requires i < |Split(text, ',')| && AllSpace(Split(text, ',')[i])
    ensures Parse(text).Failure?
  {
    WordsEmptyIffBlank(Split(text, ',')[i]);
    assert |Tokenize(text)[i]| == 0;
    ParseWrongTokenCount(text);
  }

  /** The empty text is a format error: its only segment is blank. */
  lemma EmptyTextFails()
    ensures Parse("") == Failure(WrongTokenCount(0, 0))
  {
    assert Split("", ',') == [""];
    assert Tokenize("")[0] == [];
  }

  /** A trailing comma leaves a blank last segment. */
  lemma TrailingCommaFails(text: string)
    ensures Parse(text + ",").Failure?
  {
    SplitTrailingSeparator(text, ',');
    BlankSegmentFails(text + ",", |Split(text + ",", ',')| - 1);
  }

  /** `,,` leaves a blank segment between the commas. */
  lemma DoubleCommaFails(before: string, after: string)
    ensures Parse(before + ",," + after).Failure?
  {
    SplitDoubleSeparator(before, ',', after);
    var segments := Split(before + ",," + after, ',');
    var i :| 0 <= i < |segments| && segments[i] == "";
    BlankSegmentFails(before + ",," + after, i);
  }

  // ----------------------------------------------------------------- round trip

  /** A subject the format can carry: non-empty, no whitespace, no comma. */
  predicate IsSubject(s: string)
  {
    |s| > 0 && NoSpace(s) && ',' !in s
  }

  /** One `subject score` segment. */
  function Entry(e: (string, int)): string
  {
    e.0 + " " + IntToString(e.1)
  }

  /** The segments of the documented input format `subject1 score1, subject2 score2, ...`. */
  function Segments(entries: seq<(string, int)>): seq<string>
  {
    seq(|entries|, i requires 0 <= i < |entries| => (if i == 0 then "" else " ") + Entry(entries[i]))
  }

  function Render(entries: seq<(string, int)>): string
  {
    Join(Segments(entries), ',')
  }

  lemma {:induction false} DictOfRenderedScores(entries: seq<(string, int)>, tokens: seq<(string, string)>)
    requires |tokens| == |entries|
    requires forall i :: 0 <= i < |entries| ==> tokens[i] == (entries[i].0, IntToString(entries[i].1))
    ensures Dict(tokens).Keys == Dict(entries).Keys
    ensures forall k :: k in Dict(entries) ==> Dict(tokens)[k] == IntToString(Dict(entries)[k])
    decreases |entries|
  {
    if |entries| > 0 {
      var n := |entries| - 1;
      DictOfRenderedScores(entries[..n], tokens[..n]);
    }
  }

  /** A segment that is optional leading whitespace, a token, one space and a token splits into the two tokens. */
  lemma WordsOfPair(pad: string, a: string, b: string)
    requires AllSpace(pad)
    requires |a| > 0 && NoSpace(a) && |b| > 0 && NoSpace(b)
    ensures Words(pad + a + " " + b) == [a, b]
  {
    assert Join([a, b], ' ') == a + " " + b;
    assert pad + a + " " + b == pad + Join([a, b], ' ');
    WordsSkipLeadingSpace(pad, Join([a, b], ' '));
    WordsOfJoin([a, b]);
  }

  lemma WordsOfSegment(pad: string, e: (string, int))
    requires AllSpace(pad) && IsSubject(e.0)
    ensures Words(pad + Entry(e)) == [e.0, IntToString(e.1)]
  {
    assert pad + Entry(e) == pad + e.0 + " " + IntToString(e.1);
    WordsOfPair(pad, e.0, IntToString(e.1));
  }

  lemma SplitRender(entries: seq<(string, int)>)
    requires |entries| > 0
    requires forall i :: 0 <= i < |entries| ==> IsSubject(entries[i].0)
    ensures Split(Render(entries), ',') == Segments(entries)
  {
    var segments := Segments(entries);
    forall i | 0 <= i < |segments| ensures ',' !in segments[i] {
      var pad: string := if i == 0 then "" else " ";
      assert segments[i] == pad + entries[i].0 + " " + IntToString(entries[i].1);
    }
    SplitJoin(segments, ',');
  }

  lemma TokenizeRender(entries: seq<(string, int)>)
    requires |entries| > 0
    requires forall i :: 0 <= i < |entries| ==> IsSubject(entries[i].0)
    ensures |Tokenize(Render(entries))| == |entries|
    ensures forall i :: 0 <= i < |entries| ==> Tokenize(Render(entries))[i] == [entries[i].0, IntToString(entries[i].1)]
  {
    SplitRender(entries);
    forall i | 0 <= i < |entries| ensures Tokenize(Render(entries))[i] == [entries[i].0, IntToString(entries[i].1)] {
      SegmentTokens(entries, i);
    }
  }

  lemma SegmentTokens(entries: seq<(string, int)>, i: nat)
    requires i < |entries| && IsSubject(entries[i].0)
    ensures Words(Segments(entries)[i]) == [entries[i].0, IntToString(entries[i].1)]
  {
    var pad: string := if i == 0 then "" else " ";
    assert Segments(entries)[i] == pad + Entry(entries[i]);
    WordsOfSegment(pad, entries[i]);
  }

  lemma ConvertRenderedScores(entries: seq<(string, int)>, tokens: seq<(string, string)>)
    requires |tokens| == |entries|
    requires forall i :: 0 <= i < |entries| ==> tokens[i] == (entries[i].0, IntToString(entries[i].1))
    ensures ConvertScores(Dict(tokens)) == Success(Dict(entries))
  {
    DictOfRenderedScores(entries, tokens);
    var raw, scores := Dict(tokens), Dict(entries);
    forall k | k in raw ensures ParseInt(raw[k]) == Some(scores[k]) {
      ParseIntToString(scores[k]);
    }
    var converted := map k | k in raw :: ParseInt(raw[k]).value;
    assert converted == scores;
  }

  /**
   * Rendering non-empty score lists in the documented format and parsing them back
   * gives the same map `dict` would build from the list (last score per subject).
   */
  lemma RoundTrip(entries: seq<(string, int)>)
    requires |entries| > 0
    requires forall i :: 0 <= i < |entries| ==> IsSubject(entries[i].0)
    ensures Parse(Render(entries)) == Success(Dict(entries))
  {
    var text := Render(entries);
    TokenizeRender(entries);
    var pairs := PairsOfTokens(text);
    ConvertRenderedScores(entries, pairs);
  }

  /** Without repeated keys, `dict` keeps every entry. */
  lemma DictOfDistinctKeys<V>(kvs: seq<(string, V)>)
    requires forall i, j :: 0 <= i < j < |kvs| ==> kvs[i].0 != kvs[j].0
    ensures |Dict(kvs)| == |kvs|
    ensures forall i :: 0 <= i < |kvs| ==> Dict(kvs)[kvs[i].0] == kvs[i].1
  {
    forall i | 0 <= i < |kvs| ensures Dict(kvs)[kvs[i].0] == kvs[i].1 {
      assert LastOf(kvs, i);
      DictLastWins(kvs, i);
    }
    DistinctKeysCount(kvs);
    assert |Dict(kvs)| == |Dict(kvs).Keys|;
  }

  lemma {:induction false} DistinctKeysCount<V>(kvs: seq<(string, V)>)
    requires forall i, j :: 0 <= i < j < |kvs| ==> kvs[i].0 != kvs[j].0
    ensures |KeysOf(kvs)| == |kvs|
    decreases |kvs|
  {
    if |kvs| > 0 {
      var n := |kvs| - 1;
      KeysOfSnoc(kvs);
      DistinctKeysCount(kvs[..n]);
      assert kvs[n].0 !in KeysOf(kvs[..n]);
    }
  }

  // ------------------------------------------------------------------- examples

  /** `Math 60, Physics 80` parses to both scores. */
  lemma ExampleTwoSubjects()
    ensures Parse("Math 60, Physics 80") == Success(map["Math" := 60, "Physics" := 80])
  {
    var entries := [("Math", 60), ("Physics", 80)];
    assert Render(entries) == "Math 60, Physics 80";
    RoundTrip(entries);
  }

  lemma TokenizeOne(text: string)
    requires ',' !in text
    ensures Tokenize(text) == [Words(text)]
  {
    SplitWithoutSeparator(text, ',');
  }

  lemma TokenizeTwo(first: string, second: string)
    requires ',' !in first && ',' !in second
    ensures Tokenize(first + [','] + second) == [Words(first), Words(second)]
  {
    SplitOfFirstSeparator(first, ',', second);
    SplitWithoutSeparator(second, ',');
  }

  /** `subject score, other` (the second segment lacks its score) fails at segment 1, which has one token. */
  lemma MissingScoreFails(subject: string, score: int, other: string)
    requires IsSubject(subject) && IsSubject(other)
    ensures Parse(Entry((subject, score)) + ", " + other) == Failure(WrongTokenCount(1, 1))
  {
    var first, second := Entry((subject, score)), " " + other;
    var text := first + ", " + other;
    assert text == first + [','] + second;
    TokenizeTwo(first, second);
    WordsOfSegment("", (subject, score));
    assert "" + first == first;
    WordsSkipLeadingSpace(" ", other);
    WordsOfJoin([other]);
    ParseWrongTokenCount(text);
  }

  /** `subject word` where the word is not an integer is a format error. */
  lemma WordForScoreFails(subject: string, word: string)
    requires IsSubject(subject) && IsSubject(word) && !IsIntLiteral(word)
    ensures Parse(subject + " " + word) == Failure(NotAnInteger)
  {
    var text := subject + " " + word;
    TokenizeOne(text);
    assert text == "" + subject + " " + word;
    WordsOfPair("", subject, word);
    var pairs := PairsOfTokens(text);
    assert pairs == [(subject, word)];
    assert Dict(pairs) == map[subject := word] by {
      assert pairs[..0] == [];
    }
    assert subject in map[subject := word];
  }

  /**
   * A repeated subject is only converted for its last segment: an earlier score
   * token that is not an integer does not make the text a format error.
   */
  lemma OverriddenScoreIgnored(subject: string, word: string, score: int)
    requires IsSubject(subject) && IsSubject(word)
    ensures Parse(subject + " " + word + ", " + Entry((subject, score))) == Success(map[subject := score])
  {
    var token := IntToString(score);
    var text := subject + " " + word + ", " + Entry((subject, score));
    assert text == subject + " " + word + ", " + subject + " " + token;
    OverriddenTokens(subject, word, token);
    var pairs := PairsOfTokens(text);
    assert pairs == [(subject, word), (subject, token)];
    OverriddenDict(subject, word, token, pairs);
    ParseIntToString(score);
    ConvertOne(subject, token, score);
  }

  lemma OverriddenTokens(subject: string, word: string, token: string)
    requires IsSubject(subject) && IsSubject(word) && IsSubject(token)
    ensures Tokenize(subject + " " + word + ", " + subject + " " + token) == [[subject, word], [subject, token]]
  {
    var first, second := subject + " " + word, " " + subject + " " + token;
    CommaBetween(subject, word, subject, token);
    TokenizeTwo(first, second);
    WordsOfBarePair(subject, word);
    WordsOfPair(" ", subject, token);
  }

  lemma CommaBetween(a: string, b: string, c: string, d: string)
    ensures a + " " + b + ", " + c + " " + d == (a + " " + b) + [','] + (" " + c + " " + d)
  {
  }

  lemma WordsOfBarePair(a: string, b: string)
    requires |a| > 0 && NoSpace(a) && |b| > 0 && NoSpace(b)
    ensures Words(a + " " + b) == [a, b]
  {
    assert a + " " + b == "" + a + " " + b;
    WordsOfPair("", a, b);
  }

  lemma ConvertOne(subject: string, token: string, score: int)
    requires ParseInt(token) == Some(score)
    ensures ConvertScores(map[subject := token]) == Success(map[subject := score])
  {
    var raw := map[subject := token];
    assert forall k | k in raw :: ParseInt(raw[k]).Some?;
    var converted := map k | k in raw :: ParseInt(raw[k]).value;
    assert converted == map[subject := score];
  }

  lemma OverriddenDict(subject: string, word: string, token: string, pairs: seq<(string, string)>)
    requires pairs == [(subject, word), (subject, token)]
    ensures Dict(pairs) == map[subject := token]
  {
    assert pairs[..1] == [(subject, word)];
    assert pairs[..1][..0] == [];
  }

  /** `Math 60, Physics` lacks a score in its second segment. */
  lemma ExampleMissingScore()
    ensures Parse("Math 60, Physics") == Failure(WrongTokenCount(1, 1))
  {
    assert Entry(("Math", 60)) + ", " + "Physics" == "Math 60, Physics";
    MissingScoreFails("Math", 60, "Physics");
  }

  /** `Math sixty` has a score token that is not an integer. */
  lemma ExampleWordForScore()
    ensures Parse("Math sixty") == Failure(NotAnInteger)
  {
    assert IsSubject("Math") && IsSubject("sixty");
    assert !IsIntLiteral("sixty");
    assert "Math" + " " + "sixty" == "Math sixty";
    WordForScoreFails("Math", "sixty");
  }

  /** In `Math x, Math 5` the bad first score is overridden by the second. */
  lemma ExampleOverriddenBadScore()
    ensures Parse("Math x, Math 5") == Success(map["Math" := 5])
  {
    assert "Math" + " " + "x" + ", " + Entry(("Math", 5)) == "Math x, Math 5";
    OverriddenScoreIgnored("Math", "x", 5);
  }
}

=== FILE: student_store.dfy ===
/**
 * The `students` collection as an in-memory sequence of documents
 * `{name, scores}` in insertion order. A query `{"name": name}` matches the
 * first document whose name is equal; an absent account handle is `None`, and a
 * `None` query matches only documents whose name is `None`.
 */
module StudentStore {
  import opened Wrappers
  import ScoreParser

  datatype Record = Record(name: Option<string>, scores: ScoreParser.Scores)

  /**
   * `update_one` encodes its update document as BSON before sending it. An
   * integer outside the signed 64-bit range makes the encoder raise
   * `OverflowError`, and then nothing is written.
   */
  const Int64Min: int := -0x8000_0000_0000_0000
  const Int64Max: int := 0x7fff_ffff_ffff_ffff

  predicate Encodable(scores: ScoreParser.Scores)
  {
    forall subject :: subject in scores ==> Int64Min <= scores[subject] <= Int64Max
  }

  /** The first document matching `{"name": name}`, as `find_one` and `update_one` pick it. */
  function FindIndex(students: seq<Record>, name: Option<string>): (r: Option<nat>)
    ensures r.Some? ==> r.value < |students| && students[r.value].name == name
    ensures r.Some? ==> forall j :: 0 <= j < r.value ==> students[j].name != name
    ensures r.None? ==> forall j :: 0 <= j < |students| ==> students[j].name != name
  {
    if |students| == 0 then None
    else if students[0].name == name then Some(0)
    else match FindIndex(students[1..], name)
      case None => None
      case Some(i) => Some(i + 1)
  }

  /** How many documents match `{"name": name}`. */
  function Count(students: seq<Record>, name: Option<string>): nat
  {
    if |students| == 0 then 0
    else (if students[0].name == name then 1 else 0) + Count(students[1..], name)
  }

  /** `insert_one(record)`: appended, with no check for an existing name. */
  function Insert(students: seq<Record>, record: Record): seq<Record>
  {
    students + [record]
  }

  /**
   * `update_one({"name": name}, {"$set": {"scores": scores}}, upsert=upsert)`:
   * the first match gets the new scores; with no match, `upsert` appends a new
   * document and otherwise nothing changes.
   */
  function SetScores(students: seq<Record>, name: Option<string>, scores: ScoreParser.Scores, upsert: bool): (r: seq<Record>)
  {
    match FindIndex(students, name)
    case Some(i) => students[i := students[i].(scores := scores)]
    case None => if upsert then Insert(students, Record(name, scores)) else students
  }

  /** `find_one({"name": name})`, reduced to the scores of the match. */
  function GetScores(students: seq<Record>, name: Option<string>): (r: Option<ScoreParser.Scores>)
    ensures r.Some? <==> exists i :: 0 <= i < |students| && students[i].name == name
    ensures r.Some? ==> exists i :: && 0 <= i < |students| && students[i].name == name
                                    && r.value == students[i].scores
                                    && forall j :: 0 <= j < i ==> students[j].name != name
  {
    match FindIndex(students, name)
    case Some(i) => Some(students[i].scores)
    case None => None
  }

  /** `delete_one({"name": name})`: the first match is removed, if there is one. */
  function DeleteOne(students: seq<Record>, name: Option<string>): (r: seq<Record>)
  {
    match FindIndex(students, name)
    case Some(i) => students[..i] + students[i + 1..]
    case None => students
  }

  // ------------------------------------------------------------------ lemmas

  /** The first matching document is the one `FindIndex` reports. */
  lemma FirstMatch(students: seq<Record>, name: Option<string>, i: nat)
    requires i < |students| && students[i].name == name
    requires forall j :: 0 <= j < i ==> students[j].name != name
    ensures FindIndex(students, name) == Some(i)
  {
  }

  /** A name is found exactly when some document carries it. */
  lemma {:induction false} CountFound(students: seq<Record>, name: Option<string>)
    ensures Count(students, name) > 0 <==> FindIndex(students, name).Some?
    decreases |students|
  {
    if |students| > 0 {
      CountFound(students[1..], name);
    }
  }

  lemma {:induction false} CountAppend(a: seq<Record>, b: seq<Record>, name: Option<string>)
    ensures Count(a + b, name) == Count(a, name) + Count(b, name)
    decreases |a|
  {
    if |a| > 0 {
      assert (a + b)[1..] == a[1..] + b;
      CountAppend(a[1..], b, name);
    } else {
      assert a + b == b;
    }
  }

  lemma CountSplit(students: seq<Record>, i: nat, name: Option<string>)
    requires i < |students|
    ensures Count(students, name) ==
      Count(students[..i], name) + (if students[i].name == name then 1 else 0) + Count(students[i + 1..], name)
  {
    assert students == students[..i] + ([students[i]] + students[i + 1..]);
    CountAppend(students[..i], [students[i]] + students[i + 1..], name);
    CountAppend([students[i]], students[i + 1..], name);
  }

  /** After setting scores the name is found with exactly those scores, unless an update found no match. */
  lemma SetScoresThenGet(students: seq<Record>, name: Option<string>, scores: ScoreParser.Scores, upsert: bool)
    ensures var found := FindIndex(students, name).Some?;
      GetScores(SetScores(students, name, scores, upsert), name) == if found || upsert then Some(scores) else None
  {
    var r := SetScores(students, name, scores, upsert);
    match FindIndex(students, name)
    case Some(i) =>
      FirstMatch(r, name, i);
    case None =>
      if upsert {
        FirstMatch(r, name, |students|);
      }
  }

  /** Setting the scores of one name does not change what any other name finds. */
  lemma SetScoresLeavesOthers(students: seq<Record>, name: Option<string>, scores: ScoreParser.Scores, upsert: bool, other: Option<string>)
    requires other != name
    ensures GetScores(SetScores(students, name, scores, upsert), other) == GetScores(students, other)
  {
    var r := SetScores(students, name, scores, upsert);
    SameNamesSameMatch(students, r, other);
    match FindIndex(students, other) {
      case None =>
      case Some(k) => assert r[k] == students[k];
    }
  }

  /** A collection whose first documents carry the same names, and whose extra ones do not match, has the same first match. */
  lemma SameNamesSameMatch(a: seq<Record>, b: seq<Record>, name: Option<string>)
    requires |a| <= |b|
    requires forall j :: 0 <= j < |a| ==> b[j].name == a[j].name
    requires forall j :: |a| <= j < |b| ==> b[j].name != name
    ensures FindIndex(b, name) == FindIndex(a, name)
  {
    match FindIndex(a, name) {
      case None =>
        match FindIndex(b, name) {
          case None =>
          case Some(m) => assert false;
        }
      case Some(k) =>
        forall j | 0 <= j < k
          ensures b[j].name != name
        {
          assert a[j].name != name;
        }
        FirstMatch(b, name, k);
    }
  }

  /**
   * An upsert never duplicates a name: the name ends up on at least one and no
   * extra document, and a name without a document gets one appended at the end.
   */
  lemma UpsertKeepsCount(students: seq<Record>, name: Option<string>, scores: ScoreParser.Scores)
    ensures Count(SetScores(students, name, scores, true), name) ==
      if Count(students, name) == 0 then 1 else Count(students, name)
    ensures Count(students, name) == 0 ==> SetScores(students, name, scores, true) == students + [Record(name, scores)]
  {
    CountFound(students, name);
    match FindIndex(students, name)
    case Some(i) =>
      var r := SetScores(students, name, scores, true);
      CountSplit(students, i, name);
      CountSplit(r, i, name);
      assert r[..i] == students[..i] && r[i + 1..] == students[i + 1..];
    case None =>
      CountAppend(students, [Record(name, scores)], name);
      assert Count([Record(name, scores)], name) == 1 by {
        assert [Record(name, scores)][1..] == [];
      }
  }

  /**
   * `update_one` rewrites only the first match. That record keeps its name and
   * gets the new scores. Removing it leaves the same collection as removing the
   * old first match, so later duplicates and all other records are untouched.
   */
  lemma SetScoresOnlyFirstMatch(students: seq<Record>, name: Option<string>, scores: ScoreParser.Scores, upsert: bool)
    requires FindIndex(students, name).Some?
    ensures |SetScores(students, name, scores, upsert)| == |students|
    ensures SetScores(students, name, scores, upsert)[FindIndex(students, name).value] == Record(name, scores)
    ensures DeleteOne(SetScores(students, name, scores, upsert), name) == DeleteOne(students, name)
  {
    var i := FindIndex(students, name).value;
    var r := SetScores(students, name, scores, upsert);
    FirstMatch(r, name, i);
    assert r[..i] == students[..i] && r[i + 1..] == students[i + 1..];
  }

  /** `update_one` without upsert on an absent name is a silent no-op. */
  lemma UpdateAbsentUnchanged(students: seq<Record>, name: Option<string>, scores: ScoreParser.Scores)
    requires Count(students, name) == 0
    ensures SetScores(students, name, scores, false) == students
  {
    CountFound(students, name);
  }

  /**
   * `delete_one` removes at most one document, the first match: one document
   * fewer carries the name if any did.
   */
  lemma DeleteOneRemovesFirstMatch(students: seq<Record>, name: Option<string>)
    ensures Count(students, name) == 0 ==> DeleteOne(students, name) == students
    ensures Count(students, name) > 0 ==>
      |DeleteOne(students, name)| == |students| - 1 &&
      Count(DeleteOne(students, name), name) == Count(students, name) - 1
  {
    CountFound(students, name);
    if Count(students, name) > 0 {
      var i := FindIndex(students, name).value;
      CountSplit(students, i, name);
      CountAppend(students[..i], students[i + 1..], name);
    }
  }

  /** Nothing but the removed match leaves the collection. */
  lemma DeleteOneMultiset(students: seq<Record>, name: Option<string>)
    requires FindIndex(students, name).Some?
    ensures multiset(DeleteOne(students, name)) + multiset{students[FindIndex(students, name).value]} == multiset(students)
  {
    var i := FindIndex(students, name).value;
    var before, after := students[..i], students[i + 1..];
    assert students == before + [students[i]] + after;
    assert DeleteOne(students, name) == before + after;
    calc {
      multiset(students);
      multiset(before + [students[i]] + after);
      multiset(before) + multiset{students[i]} + multiset(after);
      multiset(before + after) + multiset{students[i]};
    }
  }

  /** Deleting leaves every other name's documents alone. */
  lemma DeleteOneLeavesOthers(students: seq<Record>, name: Option<string>, other: Option<string>)
    requires other != name
    ensures Count(DeleteOne(students, name), other) == Count(students, other)
  {
    if FindIndex(students, name).Some? {
      var i := FindIndex(students, name).value;
      CountSplit(students, i, other);
      CountAppend(students[..i], students[i + 1..], other);
    }
  }

  /**
   * The documents before the first match stay where they were, and every
   * document after it moves up by one place, so their order is kept.
   */
  lemma DeleteOneKeepsOrder(students: seq<Record>, name: Option<string>)
    requires FindIndex(students, name).Some?
    ensures var i, r := FindIndex(students, name).value, DeleteOne(students, name);
      && |r| == |students| - 1
      && (forall j :: 0 <= j < i ==> r[j] == students[j])
      && (forall j :: i <= j < |r| ==> r[j] == students[j + 1])
  {
    var i := FindIndex(students, name).value;
    var before, after := students[..i], students[i + 1..];
    var r := before + after;
    assert DeleteOne(students, name) == r;
    forall j | 0 <= j < i ensures r[j] == students[j] {
      assert r[j] == before[j];
    }
    forall j | i <= j < |r| ensures r[j] == students[j + 1] {
      assert r[j] == after[j - i];
    }
  }

  /**
   * In a sequence that is `students` without the document at `i`, another
   * name's first document moves up by one place if it came after `i`.
   */
  lemma ShiftedFirstMatch(students: seq<Record>, r: seq<Record>, i: nat, k: nat, other: Option<string>)
    requires i < |students| && |r| == |students| - 1
    requires forall j :: 0 <= j < i ==> r[j] == students[j]
    requires forall j :: i <= j < |r| ==> r[j] == students[j + 1]
    requires k < |students| && k != i && students[k].name == other
    requires forall j :: 0 <= j < k ==> students[j].name != other
    ensures FindIndex(r, other) == Some(if k < i then k else k - 1)
  {
    if k < i {
      FirstMatch(r, other, k);
    } else {
      forall j | 0 <= j < k - 1 ensures r[j].name != other {
        if j >= i {
          assert r[j] == students[j + 1];
        }
      }
      FirstMatch(r, other, k - 1);
    }
  }

  /** Removing a document from a sequence in which no document has a name leaves none with it. */
  lemma RemovedNoMatch(students: seq<Record>, r: seq<Record>, i: nat, other: Option<string>)
    requires i < |students| && |r| == |students| - 1
    requires forall j :: 0 <= j < i ==> r[j] == students[j]
    requires forall j :: i <= j < |r| ==> r[j] == students[j + 1]
    requires forall j :: 0 <= j < |students| ==> students[j].name != other
    ensures FindIndex(r, other) == None
  {
    forall j | 0 <= j < |r| ensures r[j].name != other {
      if j >= i {
        assert r[j] == students[j + 1];
      }
    }
    match FindIndex(r, other)
    case None =>
    case Some(m) => assert false;
  }

  /** Deleting one name's first document leaves every other name's lookup as it was. */
  lemma DeleteOneKeepsOtherLookups(students: seq<Record>, name: Option<string>, other: Option<string>)
    requires other != name
    ensures GetScores(DeleteOne(students, name), other) == GetScores(students, other)
  {
    if FindIndex(students, name).Some? {
      var i, r := FindIndex(students, name).value, DeleteOne(students, name);
      DeleteOneKeepsOrder(students, name);
      match FindIndex(students, other)
      case Some(k) =>
        ShiftedFirstMatch(students, r, i, k, other);
        var m := if k < i then k else k - 1;
        assert r[m] == students[k];
      case None =>
        RemovedNoMatch(students, r, i, other);
    }
  }

  /** With at most one document per name, a deleted name is no longer found. */
  lemma DeleteThenNotFound(students: seq<Record>, name: Option<string>)
    requires Count(students, name) <= 1
    ensures GetScores(DeleteOne(students, name), name) == None
  {
    DeleteOneRemovesFirstMatch(students, name);
    CountFound(DeleteOne(students, name), name);
  }

  /** With a duplicate name (registration allows them) a deleted name is still found. */
  lemma DeleteDuplicateStillFound(students: seq<Record>, name: Option<string>)
    requires Count(students, name) >= 2
    ensures GetScores(DeleteOne(students, name), name).Some?
  {
    DeleteOneRemovesFirstMatch(students, name);
    CountFound(DeleteOne(students, name), name);
  }
}

=== FILE: text.dfy ===
/**
 * The three Python string operations the bot relies on:
 * `str.strip()`, `str.split(sep)` and `str.split()` (split on runs of whitespace).
 */
module Text {

  /** Python's `str.isspace` for one character: the characters `strip()` and `split()` treat as whitespace. */
  predicate IsSpace(c: char)
  {
    || c == ' '
    || ('\t' <= c <= '\r')
    || ('\U{1C}' <= c <= '\U{1F}')
    || c == '\U{85}' || c == '\U{A0}' || c == '\U{1680}'
    || ('\U{2000}' <= c <= '\U{200A}')
    || c == '\U{2028}' || c == '\U{2029}' || c == '\U{202F}' || c == '\U{205F}' || c == '\U{3000}'
  }

  predicate AllSpace(s: string)
  {
    forall i :: 0 <= i < |s| ==> IsSpace(s[i])
  }

  predicate NoSpace(s: string)
  {
    forall i :: 0 <= i < |s| ==> !IsSpace(s[i])
  }

  // ---------------------------------------------------------------- strip()

  function TrimStart(s: string): (r: string)
    ensures |r| <= |s| && r == s[|s| - |r|..]
    ensures AllSpace(s[..|s| - |r|])
    ensures r == [] || !IsSpace(r[0])
  {
    if |s| > 0 && IsSpace(s[0]) then
      var r := TrimStart(s[1..]);
      TrimStartStep(s, r);
      r
    else s
  }

  lemma TrimStartStep(s: string, r: string)
    requires |s| > 0 && IsSpace(s[0])
    requires |r| <= |s| - 1 && r == s[1..][|s| - 1 - |r|..] && AllSpace(s[1..][..|s| - 1 - |r|])
    ensures r == s[|s| - |r|..] && AllSpace(s[..|s| - |r|])
  {
    var n := |s| - |r|;
    assert s[1..][..n - 1] == s[1..n];
    forall i | 0 <= i < n
      ensures IsSpace(s[..n][i])
    {
      if i > 0 {
        assert s[..n][i] == s[1..n][i - 1];
      }
    }
  }

  function TrimEnd(s: string): (r: string)
    ensures |r| <= |s| && r == s[..|r|]
    ensures AllSpace(s[|r|..])
    ensures r == [] || !IsSpace(r[|r| - 1])
  {
    if |s| > 0 && IsSpace(s[|s| - 1]) then
      var r := TrimEnd(s[..|s| - 1]);
      assert s[|r|..] == s[..|s| - 1][|r|..] + [s[|s| - 1]];
      r
    else s
  }

  /** `s.strip()`: `s` without its leading and trailing whitespace. */
  function Strip(s: string): (r: string)
    ensures exists i, j :: 0 <= i <= j <= |s| && r == s[i..j] && AllSpace(s[..i]) && AllSpace(s[j..])
    ensures r == [] || (!IsSpace(r[0]) && !IsSpace(r[|r| - 1]))
  {
    var t := TrimStart(s);
    var r := TrimEnd(t);
    StripSlice(s, t, r);
    r
  }

  /** A prefix of a suffix, with whitespace cut at both ends, is a slice with whitespace around it. */
  lemma StripSlice(s: string, t: string, r: string)
    requires |t| <= |s| && t == s[|s| - |t|..] && AllSpace(s[..|s| - |t|])
    requires |r| <= |t| && r == t[..|r|] && AllSpace(t[|r|..])
    ensures exists i, j :: 0 <= i <= j <= |s| && r == s[i..j] && AllSpace(s[..i]) && AllSpace(s[j..])
  {
    var i := |s| - |t|;
    var j := i + |r|;
    assert r == s[i..j];
    assert s[j..] == t[|r|..];
  }

  lemma {:induction false} TrimStartNoLeadingSpace(s: string)
    requires s == [] || !IsSpace(s[0])
    ensures TrimStart(s) == s
  {
  }

  lemma {:induction false} TrimEndNoTrailingSpace(s: string)
    requires s == [] || !IsSpace(s[|s| - 1])
    ensures TrimEnd(s) == s
  {
  }

  /** Stripping twice is stripping once. */
  lemma StripIdempotent(s: string)
    ensures Strip(Strip(s)) == Strip(s)
  {
    var r := Strip(s);
    TrimStartNoLeadingSpace(r);
    TrimEndNoTrailingSpace(r);
  }

  // ------------------------------------------------------------ split(sep)

  function IndexOf(s: string, c: char): (i: nat)
    requires c in s
    ensures i < |s| && s[i] == c && c !in s[..i]
  {
    if s[0] == c then 0 else IndexOf(s[1..], c) + 1
  }

  /** `sep.join(parts)`. */
  function Join(parts: seq<string>, sep: char): string
  {
    if |parts| == 0 then ""
    else if |parts| == 1 then parts[0]
    else parts[0] + [sep] + Join(parts[1..], sep)
  }

  /**
   * `s.split(sep)` for a one-character separator: the pieces between separators,
   * empty pieces included; there is always at least one piece.
   */
  function Split(s: string, sep: char): (parts: seq<string>)
    ensures |parts| >= 1
    ensures forall i :: 0 <= i < |parts| ==> sep !in parts[i]
    ensures Join(parts, sep) == s
    decreases |s|
  {
    if sep !in s then [s]
    else
      var i := IndexOf(s, sep);
      assert s == s[..i] + [sep] + s[i + 1..];
      [s[..i]] + Split(s[i + 1..], sep)
  }

  lemma SplitWithoutSeparator(s: string, sep: char)
    requires sep !in s
    ensures Split(s, sep) == [s]
  {
  }

  lemma {:induction false} SplitOfFirstSeparator(a: string, sep: char, b: string)
    requires sep !in a
    ensures Split(a + [sep] + b, sep) == [a] + Split(b, sep)
  {
    var s := a + [sep] + b;
    assert s[|a|] == sep;
    var i := IndexOf(s, sep);
    assert s[..|a|] == a;
    assert s[..i] == a && s[i + 1..] == b;
  }

  /** Splitting a join of separator-free pieces gives the pieces back. */
  lemma {:induction false} SplitJoin(parts: seq<string>, sep: char)
    requires |parts| >= 1
    requires forall i :: 0 <= i < |parts| ==> sep !in parts[i]
    ensures Split(Join(parts, sep), sep) == parts
    decreases |parts|
  {
    if |parts| > 1 {
      SplitJoin(parts[1..], sep);
      SplitOfFirstSeparator(parts[0], sep, Join(parts[1..], sep));
      assert [parts[0]] + parts[1..] == parts;
    }
  }

  /** A separator at the very end leaves an empty last piece. */
  lemma {:induction false} SplitTrailingSeparator(s: string, sep: char)
    ensures Split(s + [sep], sep)[|Split(s + [sep], sep)| - 1] == ""
    decreases |s|
  {
    if sep !in s {
      assert s + [sep] == s + [sep] + "";
      SplitOfFirstSeparator(s, sep, "");
      SplitWithoutSeparator("", sep);
      assert Split(s + [sep], sep) == [s, ""];
    } else {
      var i := IndexOf(s, sep);
      var rest := s[i + 1..] + [sep];
      assert s + [sep] == s[..i] + [sep] + rest by {
        assert s == s[..i] + [sep] + s[i + 1..];
      }
      SplitOfFirstSeparator(s[..i], sep, rest);
      SplitTrailingSeparator(s[i + 1..], sep);
      var tail := Split(rest, sep);
      assert Split(s + [sep], sep) == [s[..i]] + tail;
      assert tail[|tail| - 1] == "";
    }
  }

  /** Two adjacent separators leave an empty piece between them. */
  lemma {:induction false} SplitDoubleSeparator(a: string, sep: char, b: string)
    ensures "" in Split(a + [sep, sep] + b, sep)
    decreases |a|
  {
    if sep !in a {
      assert a + [sep, sep] + b == a + [sep] + ([sep] + b);
      SplitOfFirstSeparator(a, sep, [sep] + b);
      assert [sep] + b == [] + [sep] + b;
      SplitOfFirstSeparator([], sep, b);
      assert Split(a + [sep, sep] + b, sep)[1] == "";
    } else {
      var i := IndexOf(a, sep);
      assert a == a[..i] + [sep] + a[i + 1..];
      assert a + [sep, sep] + b == a[..i] + [sep] + (a[i + 1..] + [sep, sep] + b);
      SplitOfFirstSeparator(a[..i], sep, a[i + 1..] + [sep, sep] + b);
      SplitDoubleSeparator(a[i + 1..], sep, b);
    }
  }

  // ---------------------------------------------------------------- split()

  /** Length of the run of non-whitespace characters that starts `s`. */
  function WordLength(s: string): (n: nat)
    requires |s| > 0 && !IsSpace(s[0])
    ensures 0 < n <= |s| && NoSpace(s[..n])
    ensures n == |s| || IsSpace(s[n])
  {
    if |s| == 1 || IsSpace(s[1]) then 1 else 1 + WordLength(s[1..])
  }

  /** `s.split()`: the maximal runs of non-whitespace characters, in order. */
  function Words(s: string): (ws: seq<string>)
    ensures forall i :: 0 <= i < |ws| ==> |ws[i]| > 0 && NoSpace(ws[i])
    decreases |s|
  {
    if |s| == 0 then []
    else if IsSpace(s[0]) then Words(s[1..])
    else
      var n := WordLength(s);
      [s[..n]] + Words(s[n..])
  }

  /** Text that is blank (empty or only whitespace) has no words, and only such text. */
  lemma {:induction false} WordsEmptyIffBlank(s: string)
    ensures Words(s) == [] <==> AllSpace(s)
    decreases |s|
  {
    if |s| > 0 {
      WordsEmptyIffBlank(s[1..]);
      if !IsSpace(s[0]) {
        assert |Words(s)| >= 1;
      } else {
        assert AllSpace(s) <==> AllSpace(s[1..]);
      }
    }
  }

  /** Whitespace in front of a text does not change its words. */
  lemma {:induction false} WordsSkipLeadingSpace(sp: string, s: string)
    requires AllSpace(sp)
    ensures Words(sp + s) == Words(s)
    decreases |sp|
  {
    if |sp| > 0 {
      assert (sp + s)[1..] == sp[1..] + s;
      WordsSkipLeadingSpace(sp[1..], s);
    } else {
      assert sp + s == s;
    }
  }

  lemma {:induction false} WordLengthOfWord(w: string, rest: string)
    requires |w| > 0 && NoSpace(w)
    requires rest == [] || IsSpace(rest[0])
    ensures WordLength(w + rest) == |w|
    decreases |w|
  {
    if |w| > 1 {
      assert (w + rest)[1..] == w[1..] + rest;
      WordLengthOfWord(w[1..], rest);
    }
  }

  /** Joining non-empty, whitespace-free words with single spaces and splitting gives them back. */
  lemma {:induction false} WordsOfJoin(ws: seq<string>)
    requires forall i :: 0 <= i < |ws| ==> |ws[i]| > 0 && NoSpace(ws[i])
    ensures Words(Join(ws, ' ')) == ws
    decreases |ws|
  {
    if |ws| == 1 {
      WordLengthOfWord(ws[0], "");
      assert ws[0] + "" == ws[0];
    } else if |ws| > 1 {
      WordThenSpace(ws[0], ' ', Join(ws[1..], ' '));
      WordsOfJoin(ws[1..]);
      assert [ws[0]] + ws[1..] == ws;
    }
  }

  /** A word followed by any whitespace character is split off as the first token. */
  lemma WordThenSpace(w: string, c: char, s: string)
    requires |w| > 0 && NoSpace(w) && IsSpace(c)
    ensures Words(w + [c] + s) == [w] + Words(s)
  {
    var rest := [c] + s;
    assert w + [c] + s == w + rest;
    WordLengthOfWord(w, rest);
    assert (w + rest)[..|w|] == w;
    assert (w + rest)[|w|..] == rest;
    WordsSkipLeadingSpace([c], s);
  }

  function Concat(ws: seq<string>): string
  {
    if |ws| == 0 then "" else ws[0] + Concat(ws[1..])
  }

  /** The characters of `s` that are not whitespace, in order. */
  function Letters(s: string): string
  {
    if |s| == 0 then "" else (if IsSpace(s[0]) then "" else [s[0]]) + Letters(s[1..])
  }

  lemma {:induction false} LettersAppend(a: string, b: string)
    ensures Letters(a + b) == Letters(a) + Letters(b)
    decreases |a|
  {
    if |a| > 0 {
      assert (a + b)[1..] == a[1..] + b;
      LettersAppend(a[1..], b);
    } else {
      assert a + b == b;
    }
  }

  lemma {:induction false} LettersOfWord(w: string)
    requires NoSpace(w)
    ensures Letters(w) == w
    decreases |w|
  {
    if |w| > 0 {
      LettersOfWord(w[1..]);
      assert w == [w[0]] + w[1..];
    }
  }

  /** `split()` drops whitespace and nothing else: its words, run together, are the text's other characters. */
  lemma {:induction false} WordsKeepEveryLetter(s: string)
    ensures Concat(Words(s)) == Letters(s)
    decreases |s|
  {
    if |s| > 0 {
      if IsSpace(s[0]) {
        WordsKeepEveryLetter(s[1..]);
      } else {
        var n := WordLength(s);
        WordsKeepEveryLetter(s[n..]);
        assert s == s[..n] + s[n..];
        LettersAppend(s[..n], s[n..]);
        LettersOfWord(s[..n]);
        assert Words(s)[1..] == Words(s[n..]);
      }
    }
  }
}

=== FILE: wrappers.dfy ===
/** Option and Result values used for absent handles, lookups and parse errors. */
module Wrappers {

  datatype Option<+T> = None | Some(value: T)

  datatype Result<+R, +E> = Success(value: R) | Failure(error: E)
}
